=== FILE: README.md ===
# Amplify GenAI front end: functional core in Dafny

This project models the pure helpers inside the Amplify GenAI chat front end
(a Next.js/React application) and proves properties of them. The helpers are:

- **Chat send service** (`hooks/useChatSendService.ts`): the `parseMessageType`
  request-mode parser (`json(...)`, `json!(...)`, `csv(...)`, `fn(...)`, else
  `chat`), the `deleteCount` message-list update, the data-source id
  normalisation (`s3://`), the order in which request option flags are merged,
  the integer part of `calculateTokenCost`, and the in-order fold of streamed
  chunks into the assistant message.
- **Assistant definitions** (`AssistantBlock.tsx`): the line-oriented
  `parsePrefixedLines` parser, whose content buffer is never cleared; the
  normalisation in `parseAssistant`; and the knowledge sources collected by
  `getDocumentsInConversation`.
- **Message editing** (`ChatMessage.tsx`): the range removed by
  `handleDeleteMessage`, forking a conversation at a message, and rating one
  message.
- **Workspace lists** (`home.tsx`): `getName`; folder create, rename and
  delete, with the cascade onto conversations, prompts and workflows; the
  feature-flag toggle; and the available-model list.
- **Settings dialog** (`SettingDialog.tsx`): bucketing models by provider,
  the stable sort by name length, option-flag updates, change detection and
  the saved record.

Modules follow the source files: `Base` holds options, results, JSON values
and the `filter` helper. `Text` holds the JavaScript string primitives
(`trim`, `\s`, `\w`, `indexOf`, `split`, `join`). `Chat` holds the shared
message and conversation records. `SendService`, `AssistantBlock`,
`ChatMessage`, `Home` and `SettingDialog` hold one source file each.

Several operations are parameters of the model. `json5.parse`, `JSON.parse`
and `JSON.stringify` are passed in as functions. So are the
`Models[...].actualTokenLimit` lookup, the `ModelID` values, the
reserved-tag and default-assistant constants, and the identifiers and dates
that are generated. Object identity (`===` on messages) is the `ident` field
of a message.

## Model

| member | source | states |
|---|---|---|
| SendService.RequestPrefix | hooks/useChatSendService.ts:307-311 | only `json`, `json!`, `csv` and `fn` select a structured mode, and the mode's word is the matched word |
| SendService.MatchPrefix | hooks/useChatSendService.ts:297-299 | a match of `^(\w+[\!]?)\(([^)]*)\)` with a request word and a non-empty argument: the text before the `(` is that word, and the `)` found is the first one after the `(` |
| SendService.ParseMessageType | hooks/useChatSendService.ts:291-325 | a chat result keeps the untrimmed message and `{}` options; any other mode means the trimmed message is word + `(arg)` + tail with non-empty `)`-free arg that json5 accepts, the options are the parse, and the body is the trimmed message minus the word |
| SendService.RecognisedPrefixIsParsed | hooks/useChatSendService.ts:301-318 | conversely, every trimmed message of that shape whose argument parses is recognised with that mode, body and options |
| SendService.AppendMessage | hooks/useChatSendService.ts:167-182 | with a positive `deleteCount` k the last min(k, n) messages are dropped before the new message is appended; otherwise the message is appended; the new message is always last |
| SendService.NormaliseDocument | hooks/useChatSendService.ts:240-249 | a document without a key passes through unchanged (and only then); a keyed document gets id `s3://`+key when the key has no `://`, else the key, with name defaulted to "" and metadata to `{}` |
| SendService.NormaliseIdempotent | hooks/useChatSendService.ts:240-249 | normalising a normalised document changes nothing |
| SendService.ResendSource | hooks/useChatSendService.ts:251-253 | a message data source keeps its id and type and has no key; its name is kept, or `""` when missing; its metadata is kept, or `{}` when missing |
| SendService.RequestDataSources | hooks/useChatSendService.ts:238-254 | attached documents win and are normalised one by one; otherwise non-empty message data sources are re-sent; otherwise no data sources |
| SendService.RagStep | hooks/useChatSendService.ts:142-144 | with RAG disabled, `skipRag` becomes true and nothing else changes; otherwise the options are untouched |
| SendService.CodeStep | hooks/useChatSendService.ts:228-236 | with the code interpreter disabled only `skipCodeInterpreter` is set; else an assistant id sets only `skipRag`; else nothing changes |
| SendService.BuilderStep | hooks/useChatSendService.ts:256-268 | the assistant-builder tag sets `skipRag` and `ragOnly` to true and leaves every other key alone |
| SendService.PluginStep | hooks/useChatSendService.ts:271-281 | the code-interpreter plugin sets `codeInterpreterOnly`; NO_RAG sets `skipRag` and clears `ragOnly`; any other plugin changes nothing |
| SendService.MergeOptions | hooks/useChatSendService.ts:142-281 | NO_RAG, applied last, forces skipRag true and ragOnly false over the builder tag; skipRag is true exactly when one of its five causes holds; the code-interpreter flags follow the feature flag and plugin; options stay undefined only when no step fires; other keys are untouched |
| SendService.InputTokens | hooks/useChatSendService.ts:79-85 | the token total bounds every document's `totalTokens`, and is zero exactly when all are zero |
| SendService.InputTokensOne | hooks/useChatSendService.ts:82-84 | a single document contributes its `totalTokens`, or nothing when it has none |
| SendService.InputTokensSnoc | hooks/useChatSendService.ts:79-85 | each document adds its tokens to the running cost, so the total is the sum of `totalTokens` in document order |
| SendService.InputTokensAppend | hooks/useChatSendService.ts:81-85 | the token total of a concatenation is the sum of the totals |
| SendService.DocTokens | hooks/useChatSendService.ts:82-84 | models one `forEach` step: a document adds its `metadata.totalTokens` when present and nothing otherwise; InputTokensOne ties it to the sum |
| SendService.TokenCost | hooks/useChatSendService.ts:78-100 | an unknown model gives -1 prompts; otherwise prompts is the ceiling of tokens over the context window: (prompts-1)*window < tokens <= prompts*window |
| SendService.Classify | hooks/useChatSendService.ts:446-449 | a chunk is an assistant-id marker iff it contains `codeInterpreterAssistantId=`, a response marker iff it contains only the response marker, else plain text; the captured id is the rest of that line |
| SendService.RefreshMessages | hooks/useChatSendService.ts:486-499 | only the last message takes the text, the state and any code data; earlier messages are unchanged, or lose their thread id when a new thread is needed |
| SendService.BeginStream | hooks/useChatSendService.ts:411-419 | an empty assistant message is appended after the existing messages |
| SendService.Throws | hooks/useChatSendService.ts:459-467 | models a response-data chunk whose JSON does not decode to the expected fields, which throws out of the read loop |
| SendService.Halted | hooks/useChatSendService.ts:433-507 | models the loop having been ended by an earlier throwing chunk; StreamText and StreamAssistantId ignore every chunk after it |
| SendService.Step | hooks/useChatSendService.ts:446-503 | models one iteration of the in-order read loop; its effect on text, halting, assistant id and messages is stated by StepEffect and StepKeepsShape |
| SendService.StepEffect | hooks/useChatSendService.ts:446-474 | an assistant-id chunk only sets the conversation's assistant id; other chunks append their piece to the text in arrival order; only a plain chunk updates the messages |
| SendService.StepKeepsShape | hooks/useChatSendService.ts:486-503 | each chunk keeps the conversation identity and earlier messages, and the last message's content stays a prefix of the text |
| SendService.StreamInOrder | hooks/useChatSendService.ts:433-507 | after the chunks, the text, halting and assistant id equal the chunk-by-chunk reference definitions; earlier messages are unchanged up to thread-id removal; the assistant message is last, its content a prefix of the text, and equal to it when the last chunk is plain text and the stream did not halt |
| SendService.DropThreadIdTwice | hooks/useChatSendService.ts:497 | removing the thread id twice is the same as once |
| AssistantBlock.KeyMatch | components/Chat/ChatContentBlocks/AssistantBlock.tsx:69 | a match means the line is leading spaces, an optional quote, a `\w` word, an optional quote, spaces, a colon and a rest without line terminators, with that word as the key and that rest as the piece |
| AssistantBlock.KeyShapeMatched | components/Chat/ChatContentBlocks/AssistantBlock.tsx:69 | conversely, every line of that shape is matched, and the key and piece are the ones of the shape: the word before the first colon and everything after it |
| AssistantBlock.ClassifyLine | components/Chat/ChatContentBlocks/AssistantBlock.tsx:68-79 | each line is trimmed; it is a key line exactly when the trimmed line has key shape, carrying that shape's key and piece; any other line keeps its trimmed text |
| AssistantBlock.Lines | components/Chat/ChatContentBlocks/AssistantBlock.tsx:63-68 | one classified line per part of `text.split('\n')` |
| AssistantBlock.ScanLine | components/Chat/ChatContentBlocks/AssistantBlock.tsx:70-82 | models one loop iteration: a key line stores the current prefix's joined buffer, switches the prefix and adds its piece; other text is buffered only under a prefix; ScanFacts states what the scan keeps |
| AssistantBlock.Scan | components/Chat/ChatContentBlocks/AssistantBlock.tsx:66-84 | models the loop over all lines from the empty state; ScanFacts and ScanValues state its result |
| AssistantBlock.Finish | components/Chat/ChatContentBlocks/AssistantBlock.tsx:86-88 | models the final store of the joined buffer under the last prefix; FinishFacts and ParsePrefixedLines state the result |
| AssistantBlock.LastKey | components/Chat/ChatContentBlocks/AssistantBlock.tsx:66-78 | there is a current prefix exactly when some line is a key line, and it is the key of one |
| AssistantBlock.ScanFacts | components/Chat/ChatContentBlocks/AssistantBlock.tsx:66-84 | the loop's prefix is the last key, its buffer holds every piece from the first key line on, and each stored value joins a prefix of the pieces |
| AssistantBlock.ParsePrefixedLines | components/Chat/ChatContentBlocks/AssistantBlock.tsx:57-91 | throws exactly on the empty string; the keys are the keys of the key lines; each key maps to the join of the pieces of the lines before the end of its last block (the next key line after its last key line, or the end); every value joins a non-empty prefix of the pieces; the last key maps to the join of all pieces |
| AssistantBlock.BlockEndIsNextKey | components/Chat/ChatContentBlocks/AssistantBlock.tsx:72-78 | the block end of a key is the first key line after its last key line, or the end of the text when that key is the last one |
| AssistantBlock.ScanValues | components/Chat/ChatContentBlocks/AssistantBlock.tsx:70-75 | a key that is no longer current holds the buffer as it was when the next key line arrived |
| AssistantBlock.StoredValuesAreNested | components/Chat/ChatContentBlocks/AssistantBlock.tsx:62-88 | of any two stored values, one is a prefix of the other, because the buffer is never reset |
| AssistantBlock.LeadingTextDiscarded | components/Chat/ChatContentBlocks/AssistantBlock.tsx:79-82 | lines before the first key line contribute nothing |
| AssistantBlock.PiecesWithoutKey | components/Chat/ChatContentBlocks/AssistantBlock.tsx:79-82 | a text with no key line has no content at all |
| AssistantBlock.MessageDocuments | components/Chat/ChatContentBlocks/AssistantBlock.tsx:48-50 | a document is collected exactly when it is among the data sources of some message |
| AssistantBlock.MessageDocumentsOne | components/Chat/ChatContentBlocks/AssistantBlock.tsx:48-50 | a single message contributes exactly its data sources, or nothing without them |
| AssistantBlock.MessageDocumentsAppend | components/Chat/ChatContentBlocks/AssistantBlock.tsx:48-50 | collecting respects concatenation of message lists, so sources come in message order |
| AssistantBlock.DocumentsInConversation | components/Chat/ChatContentBlocks/AssistantBlock.tsx:44-55 | no conversation gives no documents; a conversation gives exactly the data sources of its messages |
| AssistantBlock.KnowledgeSource | components/Chat/ChatContentBlocks/AssistantBlock.tsx:124-133 | a source with a key or an id with `://` after index 0 is kept as it is (and only then); any other gets id `s3://`+id |
| AssistantBlock.Knowledge | components/Chat/ChatContentBlocks/AssistantBlock.tsx:123-134 | one knowledge source per collected document, in order |
| AssistantBlock.StripNonAlnum | components/Chat/ChatContentBlocks/AssistantBlock.tsx:106 | the cleaned name is the input's ASCII letters and digits, all of them and in order; so it is letters and digits only, no longer, and an already clean name is unchanged |
| AssistantBlock.StripNonAlnumIdempotent | components/Chat/ChatContentBlocks/AssistantBlock.tsx:105-107 | cleaning twice is cleaning once |
| AssistantBlock.DefinitionObject | components/Chat/ChatContentBlocks/AssistantBlock.tsx:97-103 | a JSON object is the definition; any other JSON value fails; when JSON fails, an empty definition fails and any other yields the line parser's keys, each with its value as a string |
| AssistantBlock.Instructions | components/Chat/ChatContentBlocks/AssistantBlock.tsx:108-117 | models the instructions fallback: truthy instructions, else a truthy description, else the raw text, stringified when not a string; Normalise and ParseAssistant state that the definition carries it |
| AssistantBlock.ParseAssistant | components/Chat/ChatContentBlocks/AssistantBlock.tsx:93-146 | provider AMPLIFY, empty tags and tools, read/write access and the knowledge sources are fixed; it fails when no definition object is obtained, and otherwise exactly when the name is truthy and not a string; instructions fall back to description, then to the raw text; a truthy string name is reduced to its letters and digits, while a falsy name and every other non-fixed field keep their values |
| AssistantBlock.Normalise | components/Chat/ChatContentBlocks/AssistantBlock.tsx:105-139 | on a parsed object it fails exactly when the name is truthy and not a string; otherwise the result keeps every non-fixed key of the object, replaces a truthy name by its letters and digits and leaves a falsy one as it was, and fixes provider, tags, tools, access and knowledge |
| AssistantBlock.ParsedNameIsAlphanumeric | components/Chat/ChatContentBlocks/AssistantBlock.tsx:105-107 | a truthy name comes out letters and digits only |
| ChatMessage.FindMessage | components/Chat/ChatMessage.tsx:122-124 | the index of the first message with the target's identity, or -1 when there is none |
| ChatMessage.ScanForUser | components/Chat/ChatMessage.tsx:127-133 | the loop stops at the first user message, or leaves the index at the last message |
| ChatMessage.AnsweredAt | components/Chat/ChatMessage.tsx:144-145 | models the test that the target is not last and is followed by an assistant message, which decides between deleting the target alone and deleting up to the next question |
| ChatMessage.DeleteEndAsWritten | components/Chat/ChatMessage.tsx:126-151 | the end of the removed range follows the as-written rule: target alone unless an assistant reply follows, else up to the next user message, but a user message in last place is removed too |
| ChatMessage.DeleteMessageAsWritten | components/Chat/ChatMessage.tsx:118-151 | a message not found changes nothing; otherwise exactly the as-written range is spliced out |
| ChatMessage.NextUser | components/Chat/ChatMessage.tsx:126-133 | the first user message at or after an index, or the end |
| ChatMessage.DeleteEnd | components/Chat/ChatMessage.tsx:126-151 | the corrected range: target alone unless an assistant reply follows, else up to but not including the next user message, or to the end |
| ChatMessage.DeleteMessage | components/Chat/ChatMessage.tsx:118-151 | a message not found changes nothing; otherwise exactly the corrected range is spliced out |
| ChatMessage.DeleteKeepsLaterUsers | components/Chat/ChatMessage.tsx:143-151 | messages before the target are kept, and so is every later user message |
| ChatMessage.DeleteEndsAgree | components/Chat/ChatMessage.tsx:135-137 | the two rules differ exactly when an assistant reply follows and the only later user message is the last one |
| ChatMessage.DeleteAsWrittenSwallowsLastQuestion | components/Chat/ChatMessage.tsx:135-137 | deleting the first question of [question, answer, question] empties the list as written, and keeps the second question under the corrected rule |
| ChatMessage.Fork | components/Chat/ChatMessage.tsx:264-272 | the list grows by one entry at the end; its messages are the prefix of length min(index+1, n); only the id and messages differ from the original |
| ChatMessage.ForkEndsAtMessage | components/Chat/ChatMessage.tsx:268 | a fork at an existing index has index+1 messages ending with that message |
| ChatMessage.Rate | components/Chat/ChatMessage.tsx:241-246 | only the rated index changes; it becomes the rendered message with `data.rating` set and its other data kept |
| ChatMessage.RateTwice | components/Chat/ChatMessage.tsx:244-246 | the last rating wins |
| Home.CapitaliseAll | pages/api/home/home.tsx:1101-1103 | one capitalised part per part |
| Home.LocalPart | pages/api/home/home.tsx:1097 | the text before the first `@`, which holds no `@` |
| Home.Capitalise | pages/api/home/home.tsx:1102 | a part keeps its length and every character after the first; the first is upper-cased |
| Home.CapitalisedJoinIsSpelled | pages/api/home/home.tsx:1099-1105 | split on dots, capitalise and join with spaces is, character by character: dots become spaces, part-initial characters are upper-cased, the rest are kept |
| Home.GetName | pages/api/home/home.tsx:1094-1106 | "Anonymous" for a missing or empty address; otherwise the local part spelled out and cut to 28 characters, with no `.` or `@` |
| Home.CreateFolder | pages/api/home/home.tsx:347-361 | exactly one folder with the given name and type is appended; existing folders are unchanged |
| Home.RemoveFolder | pages/api/home/home.tsx:457 | exactly the folders with another id remain |
| Home.CreateThenRemove | pages/api/home/home.tsx:457 | deleting a folder just created under an unused id gives back the original list |
| Home.UpdateFolder | pages/api/home/home.tsx:467-476 | same length and order; folders with the id are renamed and nothing else changes |
| Home.UpdateFolderTwice | pages/api/home/home.tsx:467-476 | renaming twice keeps the second name |
| Home.FolderTypeOf | pages/api/home/home.tsx:365 | a type exactly when some folder has the id, and it is the type of the first folder with the id |
| Home.DeleteChatFolder | pages/api/home/home.tsx:370-416 | exactly the conversations outside the folder remain; a surviving selection stays, a removed one moves to the last remaining conversation, or to the new conversation when none remain |
| Home.DeleteChatFolderPiecewise | pages/api/home/home.tsx:371-380 | the remaining conversations keep their relative order |
| Home.RehomePrompts | pages/api/home/home.tsx:418-437 | prompts outside the folder stay, reserved system assistants of the folder stay with a null folder, the rest of the folder is dropped |
| Home.RehomeCount | pages/api/home/home.tsx:418-437 | the number kept is the number outside the folder plus the reserved ones inside it |
| Home.Reserved | pages/api/home/home.tsx:420 | models the reserved test: an assistant prompt whose tags include the system tag |
| Home.DropsSelected | pages/api/home/home.tsx:418-429 | models when the selected assistant is reset: some non-reserved prompt of the folder carries the selected assistant id; DeletePromptFolder states the reset |
| Home.DeletePromptFolder | pages/api/home/home.tsx:417-441 | the selected assistant falls back to the default exactly when a dropped prompt refers to it |
| Home.DeleteWorkflowFolder | pages/api/home/home.tsx:442-451 | no workflow is removed; those in the folder get a null folder, the others are unchanged |
| Home.DeleteWorkflowFolderIdempotent | pages/api/home/home.tsx:442-451 | deleting a workflow folder twice is the same as once |
| Home.DeleteFolder | pages/api/home/home.tsx:364-462 | the cascade follows the first matching folder's type and touches only that kind of list; the folder list always loses the id |
| Home.DeleteFolderLeavesNoTrace | pages/api/home/home.tsx:364-462 | afterwards no folder has the id and nothing of the folder's kind is filed in it |
| Home.ToggleFeature | pages/api/home/home.tsx:297-305 | the named flag flips (a missing one becomes true) and every other flag is unchanged |
| Home.ToggleTwice | pages/api/home/home.tsx:297-300 | toggling twice restores a set flag and leaves a missing one false |
| Home.Matches | pages/api/home/home.tsx:219-221 | one entry, the id with its descriptor, per `ModelID` value equal to the id, and none for an unknown id |
| Home.CollectModels | pages/api/home/home.tsx:216-234 | every entry is a listed, known id with its own descriptor |
| Home.AvailableModels | pages/api/home/home.tsx:212-238 | no update for an empty setting; otherwise entries for listed, known ids only |
| Home.MatchesDistinct | pages/api/home/home.tsx:219-221 | with distinct `ModelID` values, a known id gives exactly one entry |
| Home.CollectedIdsAreKnownListed | pages/api/home/home.tsx:212-234 | with distinct `ModelID` values, the model ids are the known listed ids in list order |
| SettingDialog.BucketOf | components/Settings/SettingDialog.tsx:87-95 | `anthropic` anywhere wins, then a `mistral` prefix, then a `gpt` prefix, else no bucket |
| SettingDialog.Selected | components/Settings/SettingDialog.tsx:86-97 | a bucket holds the id-and-name entry of every model of that bucket, and nothing else |
| SettingDialog.SelectedOne | components/Settings/SettingDialog.tsx:86-97 | one model contributes its entry to its own bucket and nothing to the others |
| SettingDialog.SelectedAppend | components/Settings/SettingDialog.tsx:86-97 | selection works piecewise, so each bucket lists its models in model order |
| SettingDialog.BucketsPartition | components/Settings/SettingDialog.tsx:86-97 | every model is in exactly one bucket or dropped |
| SettingDialog.Insert | components/Settings/SettingDialog.tsx:98-100 | insertion into a sorted list keeps it sorted and adds exactly the one entry |
| SettingDialog.InsertStable | components/Settings/SettingDialog.tsx:98-100 | the inserted entry comes after every entry of its length |
| SettingDialog.SortByLength | components/Settings/SettingDialog.tsx:98-100 | a permutation, sorted longest name first, keeping equally long names in order |
| SettingDialog.GetAvailableModels | components/Settings/SettingDialog.tsx:85-103 | each bucket is its models' entries, stably sorted by name length, longest first |
| SettingDialog.EntriesInOwnBucket | components/Settings/SettingDialog.tsx:86-97 | an entry appears only in the bucket of its id and comes from a listed model |
| SettingDialog.SetFlag | components/Settings/SettingDialog.tsx:187 | the key takes the value; an existing key keeps its position and the record's length, a new key is appended last; every other entry stays in place, every other key reads as before, and keys stay unique |
| SettingDialog.SetFlagBack | components/Settings/SettingDialog.tsx:187 | setting a flag back to its old value restores the record, order included |
| SettingDialog.Save | components/Settings/SettingDialog.tsx:65-68 | the saved record is the theme and both option records of the dialog |
| SettingDialog.HasChanges | components/Settings/SettingDialog.tsx:44-47 | models `hasChanges`: the theme or either serialised option record differs from the initial settings; ChangesIffSaveDiffers ties it to the saved record |
| SettingDialog.ChangesIffSaveDiffers | components/Settings/SettingDialog.tsx:44-47 | unsaved changes are shown exactly when saving would store something other than the initial settings |
| SettingDialog.Mount | components/Settings/SettingDialog.tsx:33-35 | a newly mounted dialog starts from the stored settings, with the dark theme forced by the mount effect at lines 52-55 |
| SettingDialog.MountedChanged | components/Settings/SettingDialog.tsx:44-55 | a newly mounted dialog shows changes exactly when the stored theme is not dark |
| SettingDialog.ChangeFeature | components/Settings/SettingDialog.tsx:236-238 | a feature flag change updates that one key and nothing else in the dialog |
| SettingDialog.ChangeModel | components/Settings/SettingDialog.tsx:186-188 | a model flag change updates that one key and nothing else in the dialog |
| SettingDialog.FeatureChangeUndone | components/Settings/SettingDialog.tsx:236-238 | changing a feature flag and changing it back leaves no unsaved change |
| SettingDialog.NewFeatureFlagIsChange | components/Settings/SettingDialog.tsx:44-47 | setting a flag the settings lack always counts as a change, because the serialised record gains a key |
| Text.IsSpace | components/Chat/ChatContentBlocks/AssistantBlock.tsx:68 | the characters `trim` removes and `\s` matches: ECMAScript WhiteSpace and LineTerminator |
| Text.Trim | components/Chat/ChatContentBlocks/AssistantBlock.tsx:68 | the result is a slice of the input with only whitespace cut at each end, and it neither starts nor ends with whitespace |
| Text.IndexOf | components/Chat/ChatContentBlocks/AssistantBlock.tsx:125 | -1 exactly when the text does not contain the search string; otherwise the first position where it occurs |
| Text.Split | components/Chat/ChatContentBlocks/AssistantBlock.tsx:63 | at least one part, no part contains the separator, and the first part is the text before the first separator |
| Text.Join | components/Chat/ChatContentBlocks/AssistantBlock.tsx:74 | models `join`; JoinSnoc and SplitJoin state its properties |
| Text.JoinSnoc | components/Chat/ChatContentBlocks/AssistantBlock.tsx:74 | joining one more part appends the separator and the part |
| Text.SplitJoin | pages/api/home/home.tsx:1100-1105 | joining the parts of a split on the same separator gives the text back |

## Left out

- Network calls, React rendering, `dispatch`, `localStorage`, statistics events, toasts and confirmations are left out, and so are the remote deletes of conversations and assistants. None of them affects the lists or values modelled. React effects are left out too, except the settings dialog's mount effect that selects the dark theme, which `SettingDialog.Mount` models.
- The out-of-order stream reassembler is left out: its class is defined in a file that is not part of this model.
- Floating-point costs (`inputCost`, `outputCost`, `totalCost`, `toFixed`) are left out. Only the integer token sum and the prompt count are modelled.
- Asynchronous coordination is left out: stop and abort timing, polling and loading flags. An abort is modelled as the stream ending after the chunks read so far.
- `json5.parse`, `JSON.parse`, `JSON.stringify`, the response-state deep merge, uuid and date generation are function parameters, not models.
- The values of `ModelID`, `Models`, `ReservedTags`, `PluginID`, `AssistantProviderID` and `DEFAULT_ASSISTANT` are parameters or tags, because they are defined in files that are not part of this model.
- SendService.AppendMessage: a fractional `deleteCount` is not modelled; counts are integers.
- AssistantBlock.DefinitionObject: a `JSON.parse` result that is not an object is treated as a failed definition. For `null` this matches the source, as reading `.name` throws. For strings, numbers and booleans it matches too, as assigning a field to a primitive throws in strict mode. An array is deliberately not modelled: the source adds the fields to the array and returns it, while the model fails.
- AssistantBlock.ParsePrefixedLines: a key named `__proto__` is kept in the result map; in the source, assigning that key on a plain object sets the prototype instead, so the key never appears.
- AssistantBlock.Lines: only the number of lines is stated; the classification of each line is stated by `ClassifyLine`.
- Home.GetName: upper-casing covers ASCII letters only, and the 28-character cut counts characters rather than UTF-16 code units.
- Home.Capitalise: upper-casing covers ASCII letters only; `toUpperCase` also maps other letters, some of them to more than one character.
- Home.CapitalisedJoinIsSpelled: the same ASCII-only upper-casing as `Home.Capitalise`.
- SettingDialog.Mount: only the first mount is modelled. The dialog renders nothing while closed but stays mounted, so closing and reopening keeps the earlier theme and options rather than starting again from the settings; `SettingDialog.MountedChanged` holds after a mount, not after such a reopening.
- ChatMessage.Rate: requires `messageIndex` to be an index of the list; assigning past the end of a JavaScript array leaves holes, which the model does not represent.
- ChatMessage.Fork: `messageIndex` is a natural number, as the index of a rendered message always is.
- SettingDialog.HasChanges: `JSON.stringify` of an option record is identified with its ordered entry list. Key escaping is not modelled, and neither is the JavaScript rule that orders integer-like keys first.
- The mutation in place of the selected conversation's message array (`splice`, indexed assignment) is modelled as a new list.
- SendService.RefreshMessages: `delete message.codeInterpreterMessageData.threadId` mutates message objects that the caller's conversation shares; the model returns new messages and leaves the caller's list as it was.
- SendService.Step: the response state is a parameter fixed for the whole stream; the source merges each `state` event into `currentState`, which can therefore change between chunks.
- SendService.DocTokens: `totalTokens` is a natural number; the source adds any truthy number, including negative and fractional ones.
- SendService.TokenCost: the context window is a positive integer; an `actualTokenLimit` of 0 would make the source divide by zero in `Math.ceil`.
- SettingDialog.SetFlag: option values are booleans, as the dialog's state declares them; a stored settings record holding other JSON values is not represented.
- SendService.MergeOptions: option values are booleans only; the request's options may hold any value, and a truthy non-boolean flag such as `ragOnly` is not represented.
- SettingDialog.SortByLength: names are compared by their number of characters, whereas `name.length` counts UTF-16 code units, so a name with a character outside the Basic Multilingual Plane may sort differently.

## Findings

| source | as written | input that shows it | evidently intended | confidence | as-written member | corrected member |
|---|---|---|---|---|---|---|
| components/Chat/ChatMessage.tsx:135-137 | `if (nextUserIndex === messages.length - 1) nextUserIndex = messages.length` also fires when the message at the last index is the next user message | deleting the first question of [user, assistant, user] removes all three messages | delete the question and its answer only, up to but not including the next user message; extend to the end only when there is no later user message | not executed | ChatMessage.DeleteMessageAsWritten (with ChatMessage.DeleteAsWrittenSwallowsLastQuestion and ChatMessage.DeleteEndsAgree) | ChatMessage.DeleteMessage (with ChatMessage.DeleteKeepsLaterUsers) |

=== FILE: assistant_block.dfy ===
/** Assistant definitions written by the model inside a chat
    (components/Chat/ChatContentBlocks/AssistantBlock.tsx): the line-oriented
    `key: value` parser, the normalisation of a parsed definition, and the
    knowledge sources collected from the conversation. */
module AssistantBlock {
  import opened Base
  import opened Text
  import opened Chat

  // ---------------------------------------------------------------------
  // parsePrefixedLines
  // ---------------------------------------------------------------------

  /** A trimmed line: a `key:` line with its key and the content after the
      colon, or any other line. */
  datatype Line = KeyLine(key: string, piece: string) | TextLine(text: string)

  /** Every character of `s` is a space: `\s*` matches all of it. */
  predicate AllSpaces(s: string) {
    LeadingSpaces(s) == |s|
  }

  /** `s` is a non-empty run of `\w` characters: `\w+` matches all of it. */
  predicate IsWord(s: string) {
    s != [] && WordRun(s) == |s|
  }

  /** `s` is matched by `.*`: no character of it is a line terminator. */
  predicate SingleLine(s: string) {
    forall k :: 0 <= k < |s| ==> !IsLineTerminator(s[k])
  }

  /** An optional quote, `"?`. */
  predicate OptionalQuote(q: string) {
    q == [] || q == "\""
  }

  /** `t` reads as the parts of `/^(\s*"?(\w+)"?\s*):(.*)$/`: leading
      spaces, an optional quote, the key word, an optional quote, spaces, the
      colon, and a rest without line terminators. */
  ghost predicate KeyParts(t: string, lead: string, q1: string, key: string, q2: string, sp: string, piece: string) {
    && AllSpaces(lead) && OptionalQuote(q1) && IsWord(key) && OptionalQuote(q2)
    && AllSpaces(sp) && SingleLine(piece)
    && t == lead + (q1 + (key + (q2 + (sp + (":" + piece)))))
  }

  /** The regular expression matches `t` with `key` as its second group and
      `piece` as its third. */
  ghost predicate KeyShape(t: string, key: string, piece: string) {
    exists lead, q1, q2, sp :: KeyParts(t, lead, q1, key, q2, sp, piece)
  }

  /** `s` without a leading quote. */
  function SkipQuote(s: string): (r: string)
    ensures |r| <= |s|
  {
    if s != [] && s[0] == '"' then s[1..] else s
  }

  /** `t.match(/^(\s*"?(\w+)"?\s*):(.*)$/)`: the word and the rest, when the
      line matches. Every quantifier of the pattern is forced (a shorter `\w+`
      or `\s*` leaves a character the next part cannot take), so the parts are
      consumed left to right. */
  function KeyMatch(t: string): (m: Option<(string, string)>)
    ensures m.Some? ==> KeyShape(t, m.value.0, m.value.1)
  {
    var u := t[LeadingSpaces(t)..];
    var v := SkipQuote(u);
    var w := WordRun(v);
    var y := SkipQuote(v[w..]);
    var z := y[LeadingSpaces(y)..];
    if w > 0 && z != [] && z[0] == ':' && SingleLine(z[1..]) then
      StagesShaped(t, u, v, w, y, z);
      Some((v[..w], z[1..]))
    else
      None
  }

  /** The stages of a successful match put the line back together from its parts. */
  lemma StagesShaped(t: string, u: string, v: string, w: nat, y: string, z: string)
    requires u == t[LeadingSpaces(t)..] && v == SkipQuote(u) && w == WordRun(v)
    requires y == SkipQuote(v[w..]) && z == y[LeadingSpaces(y)..]
    requires w > 0 && z != [] && z[0] == ':' && SingleLine(z[1..])
    ensures KeyShape(t, v[..w], z[1..])
  {
    var x := v[w..];
    var lead, q1, key, q2, sp, piece := t[..LeadingSpaces(t)], u[..|u| - |v|], v[..w], x[..|x| - |y|], y[..LeadingSpaces(y)], z[1..];
    SplitSpaces(t);
    SplitQuote(u);
    SplitWord(v);
    SplitQuote(x);
    SplitSpaces(y);
    ColonFirst(z);
    Reassemble(t, lead, u, q1, v, key, x, q2, y, sp, z, piece);
    PartsShape(t, lead, q1, key, q2, sp, piece);
  }

  lemma ColonFirst(z: string)
    requires z != [] && z[0] == ':'
    ensures z == ":" + z[1..]
  {
  }

  lemma PartsShape(t: string, lead: string, q1: string, key: string, q2: string, sp: string, piece: string)
    requires KeyParts(t, lead, q1, key, q2, sp, piece)
    ensures KeyShape(t, key, piece)
  {
  }

  lemma Reassemble(t: string, lead: string, u: string, q1: string, v: string, key: string, x: string,
                   q2: string, y: string, sp: string, z: string, piece: string)
    requires t == lead + u && u == q1 + v && v == key + x && x == q2 + y && y == sp + z && z == ":" + piece
    ensures t == lead + (q1 + (key + (q2 + (sp + (":" + piece)))))
  {
  }

  /** `s` is its leading spaces followed by the rest. */
  lemma SplitSpaces(s: string)
    ensures AllSpaces(s[..LeadingSpaces(s)]) && s == s[..LeadingSpaces(s)] + s[LeadingSpaces(s)..]
  {
    LeadingSpacesOfPrefix(s);
    SplitAt(s, LeadingSpaces(s));
  }

  lemma SplitAt(s: string, n: nat)
    requires n <= |s|
    ensures s == s[..n] + s[n..]
  {
  }

  lemma {:induction false} LeadingSpacesOfPrefix(s: string)
    ensures LeadingSpaces(s[..LeadingSpaces(s)]) == LeadingSpaces(s)
  {
    var n := LeadingSpaces(s);
    if n > 0 {
      assert s[..n][0] == s[0];
      assert s[..n][1..] == s[1..][..n - 1];
      LeadingSpacesOfPrefix(s[1..]);
    }
  }

  /** `s` is its optional leading quote followed by the rest. */
  lemma SplitQuote(s: string)
    ensures OptionalQuote(s[..|s| - |SkipQuote(s)|]) && s == s[..|s| - |SkipQuote(s)|] + SkipQuote(s)
  {
  }

  /** `s` is its leading run of word characters followed by the rest. */
  lemma SplitWord(s: string)
    ensures WordRun(s[..WordRun(s)]) == WordRun(s)
    ensures s == s[..WordRun(s)] + s[WordRun(s)..]
  {
  }

  /** The leading spaces of `lead + rest` are `lead` when `rest` does not start with one. */
  lemma {:induction false} SpacesPrefix(lead: string, rest: string)
    requires AllSpaces(lead) && rest != [] && !IsSpace(rest[0])
    ensures LeadingSpaces(lead + rest) == |lead|
  {
    if lead != [] {
      assert (lead + rest)[1..] == lead[1..] + rest;
      SpacesPrefix(lead[1..], rest);
    }
  }

  /** The leading word of `key + rest` is `key` when `rest` does not start with a word character. */
  lemma {:induction false} WordPrefix(key: string, rest: string)
    requires WordRun(key) == |key|
    requires rest != [] && !IsWordChar(rest[0])
    ensures WordRun(key + rest) == |key|
  {
    if key != [] {
      assert (key + rest)[1..] == key[1..] + rest;
      WordPrefix(key[1..], rest);
    }
  }

  /** Conversely, a line of that shape is matched, and its key and rest are
      the ones `KeyMatch` gives: the parts are unique. */
  lemma KeyShapeMatched(t: string, lead: string, q1: string, key: string, q2: string, sp: string, piece: string)
    requires KeyParts(t, lead, q1, key, q2, sp, piece)
    ensures KeyMatch(t) == Some((key, piece))
  {
    var z := ":" + piece;
    var r4 := sp + z;
    var r3 := q2 + r4;
    var r2 := key + r3;
    var r1 := q1 + r2;
    assert t == lead + r1;
    assert z[0] == ':' && z[1..] == piece;
    NotSpace(r1[0]) by {
      if q1 == [] { assert r1[0] == key[0]; } else { assert r1[0] == q1[0]; }
    }
    SpacesPrefix(lead, r1);
    assert SkipQuote(r1) == r2 by {
      if q1 == [] { assert r1 == r2; } else { assert r1[1..] == r2; }
    }
    assert !IsWordChar(r3[0]) by {
      if q2 == [] && sp != [] { assert r3[0] == sp[0]; }
    }
    WordPrefix(key, r3);
    assert SkipQuote(r3) == r4 by {
      if q2 == [] { assert r3 == r4; } else { assert r3[1..] == r4; }
    }
    NotSpace(z[0]);
    SpacesPrefix(sp, z);
    MatchFromStages(t, r1, r2, key, r3, r4, |sp|, z);
  }

  /** A quote, a colon and a word character are not spaces. */
  lemma NotSpace(c: char)
    requires c == '"' || c == ':' || IsWordChar(c)
    ensures !IsSpace(c)
  {
  }

  /** `KeyMatch` read off from the value of each of its stages. */
  lemma MatchFromStages(t: string, r1: string, r2: string, key: string, r3: string, r4: string, n: nat, z: string)
    requires t[LeadingSpaces(t)..] == r1 && SkipQuote(r1) == r2
    requires key != [] && WordRun(r2) == |key| && r2[..|key|] == key && r2[|key|..] == r3
    requires SkipQuote(r3) == r4 && LeadingSpaces(r4) == n && r4[n..] == z
    requires z != [] && z[0] == ':' && SingleLine(z[1..])
    ensures KeyMatch(t) == Some((key, z[1..]))
  {
  }

  /** Every line of key shape is matched, with its own key and rest. */
  lemma KeyShapeUnique(t: string)
    ensures forall key, piece :: KeyShape(t, key, piece) ==> KeyMatch(t) == Some((key, piece))
  {
    forall key, piece | KeyShape(t, key, piece)
      ensures KeyMatch(t) == Some((key, piece))
    {
      var lead, q1, q2, sp :| KeyParts(t, lead, q1, key, q2, sp, piece);
      KeyShapeMatched(t, lead, q1, key, q2, sp, piece);
    }
  }

  /** A raw line, trimmed and classified: a key line exactly when the trimmed
      line has key shape, with the key and rest of that shape. */
  function ClassifyLine(raw: string): (l: Line)
    ensures l.KeyLine? ==> KeyShape(Trim(raw), l.key, l.piece)
    ensures l.TextLine? ==> l.text == Trim(raw) && forall key, piece :: !KeyShape(Trim(raw), key, piece)
  {
    KeyShapeUnique(Trim(raw));
    match KeyMatch(Trim(raw))
    case Some((key, piece)) => KeyLine(key, piece)
    case None => TextLine(Trim(raw))
  }

  /** The lines of a definition: `text.split('\n')`, each trimmed and classified. */
  function Lines(text: string): (ls: seq<Line>)
    ensures |ls| == |Split(text, '\n')|
  {
    var raw := Split(text, '\n');
    seq(|raw|, i requires 0 <= i < |raw| => ClassifyLine(raw[i]))
  }

  /** Some line of `lines` is a key line. */
  predicate HasKey(lines: seq<Line>) {
    exists i :: 0 <= i < |lines| && lines[i].KeyLine?
  }

  /** The key of the last key line, if any. */
  function LastKey(lines: seq<Line>): (k: Option<string>)
    ensures k.Some? <==> HasKey(lines)
    ensures k.Some? ==> exists i :: 0 <= i < |lines| && lines[i].KeyLine? && lines[i].key == k.value
  {
    if lines == [] then None
    else
      var n := |lines| - 1;
      if lines[n].KeyLine? then Some(lines[n].key)
      else
        var k := LastKey(lines[..n]);
        assert HasKey(lines[..n]) <==> HasKey(lines) by {
          if HasKey(lines) {
            var i :| 0 <= i < |lines| && lines[i].KeyLine?;
            assert lines[..n][i] == lines[i];
          }
          if HasKey(lines[..n]) {
            var i :| 0 <= i < n && lines[..n][i].KeyLine?;
            assert lines[i] == lines[..n][i];
          }
        }
        if k.Some? then
          var i :| 0 <= i < n && lines[..n][i].KeyLine? && lines[..n][i].key == k.value;
          assert lines[i] == lines[..n][i];
          k
        else k
  }

  /** The content pieces, in order: every line from the first key line on,
      a key line contributing the text after its colon. */
  function Pieces(lines: seq<Line>): seq<string> {
    if lines == [] then []
    else
      var n := |lines| - 1;
      match lines[n]
      case KeyLine(_, piece) => Pieces(lines[..n]) + [piece]
      case TextLine(t) => if HasKey(lines[..n]) then Pieces(lines[..n]) + [t] else Pieces(lines[..n])
  }

  /** The keys that occur in key lines. */
  ghost predicate KeyOccurs(lines: seq<Line>, k: string) {
    exists i :: 0 <= i < |lines| && lines[i].KeyLine? && lines[i].key == k
  }

  /** The loop state of `parsePrefixedLines`: `currentPrefix`, the content
      buffer (never cleared) and the result map written so far. */
  datatype ScanState = ScanState(current: Option<string>, buffer: seq<string>, result: map<string, string>)

  const NewLine := "\n"

  function ScanLine(st: ScanState, line: Line): ScanState {
    match line
    case KeyLine(k, piece) =>
      var result := if st.current.Some? then st.result[st.current.value := Join(st.buffer, NewLine)] else st.result;
      ScanState(Some(k), st.buffer + [piece], result)
    case TextLine(t) =>
      if st.current.Some? then st.(buffer := st.buffer + [t]) else st
  }

  function Scan(lines: seq<Line>): ScanState {
    if lines == [] then ScanState(None, [], map[])
    else ScanLine(Scan(lines[..|lines| - 1]), lines[|lines| - 1])
  }

  /** After the loop: the last prefix receives the whole buffer. */
  function Finish(st: ScanState): map<string, string> {
    if st.current.Some? then st.result[st.current.value := Join(st.buffer, NewLine)] else st.result
  }

  /** `v` is the join of the first `m` pieces for some `m >= 1`. */
  ghost predicate JoinOfPrefix(v: string, pieces: seq<string>) {
    exists m :: 1 <= m <= |pieces| && v == Join(pieces[..m], NewLine)
  }

  /** What the scan keeps: the current prefix is the last key, the buffer is
      every piece so far, the keys written are the keys seen (bar the current
      one), and each stored value joins a prefix of the pieces. */
  lemma {:induction false} ScanFacts(lines: seq<Line>)
    ensures var st := Scan(lines);
            && st.current == LastKey(lines)
            && st.buffer == Pieces(lines)
            && (HasKey(lines) ==> |st.buffer| >= 1)
            && (forall k :: k in st.result ==> KeyOccurs(lines, k))
            && (forall k :: KeyOccurs(lines, k) ==> k in st.result || Some(k) == st.current)
            && (forall k :: k in st.result ==> JoinOfPrefix(st.result[k], st.buffer))
  {
    if lines != [] {
      var n := |lines| - 1;
      var pre := lines[..n];
      ScanFacts(pre);
      var st := Scan(pre);
      var st' := Scan(lines);
      assert st' == ScanLine(st, lines[n]);
      OccursSnoc(lines);
      forall k | k in st.result
        ensures JoinOfPrefix(st.result[k], st'.buffer)
      {
        JoinOfPrefixGrows(st.result[k], st.buffer, st'.buffer);
      }
      if lines[n].KeyLine? && st.current.Some? {
        assert st'.buffer[..|st.buffer|] == st.buffer;
        assert JoinOfPrefix(Join(st.buffer, NewLine), st'.buffer);
      }
    }
  }

  /** The key lines of a list are those of all but its last line, plus the last if it is one. */
  lemma OccursSnoc(lines: seq<Line>)
    requires lines != []
    ensures var n := |lines| - 1;
            && (forall k :: KeyOccurs(lines, k) <==> KeyOccurs(lines[..n], k) || (lines[n].KeyLine? && lines[n].key == k))
            && (HasKey(lines) <==> HasKey(lines[..n]) || lines[n].KeyLine?)
  {
    var n := |lines| - 1;
    var pre := lines[..n];
    assert forall i :: 0 <= i < n ==> lines[i] == pre[i];
    forall k | KeyOccurs(lines, k)
      ensures KeyOccurs(pre, k) || (lines[n].KeyLine? && lines[n].key == k)
    {
      var i :| 0 <= i < |lines| && lines[i].KeyLine? && lines[i].key == k;
      if i < n { assert pre[i] == lines[i]; }
    }
    if HasKey(lines) && !lines[n].KeyLine? {
      var i :| 0 <= i < |lines| && lines[i].KeyLine?;
      assert pre[i] == lines[i];
    }
  }

  /** Where the block of `k`'s last key line ends: at the next key line after
      it, or at the end of the lines. */
  function BlockEnd(lines: seq<Line>, k: string): (e: nat)
    ensures e <= |lines|
  {
    if lines == [] then 0
    else
      var n := |lines| - 1;
      if lines[n].KeyLine? && lines[n].key == k then |lines|
      else if lines[n].TextLine? && LastKey(lines[..n]) == Some(k) then |lines|
      else BlockEnd(lines[..n], k)
  }

  /** The block of the last key runs to the end of the lines. */
  lemma LastBlockEnd(lines: seq<Line>)
    requires HasKey(lines)
    ensures BlockEnd(lines, LastKey(lines).value) == |lines|
  {
  }

  /** The facts that pin `e` as the end of the block of `k`'s last key line,
      which starts at `i`. */
  ghost predicate BlockAt(lines: seq<Line>, k: string, i: nat, e: nat) {
    && i < e <= |lines|
    && (e == |lines| <==> LastKey(lines) == Some(k))
    && (e < |lines| ==> lines[e].KeyLine?)
    && (forall j :: e <= j < |lines| ==> !(lines[j].KeyLine? && lines[j].key == k))
    && lines[i].KeyLine? && lines[i].key == k
    && (forall j :: i < j < e ==> lines[j].TextLine?)
  }

  /** `BlockEnd` is the index of the first key line after the last key line
      of `k`, or the end of the lines when there is none. */
  lemma {:induction false} BlockEndIsNextKey(lines: seq<Line>, k: string)
    requires KeyOccurs(lines, k)
    ensures exists i :: BlockAt(lines, k, i, BlockEnd(lines, k))
  {
    var n := |lines| - 1;
    var pre := lines[..n];
    if lines[n].KeyLine? && lines[n].key == k {
      assert BlockEnd(lines, k) == |lines|;
      assert BlockAt(lines, k, n, BlockEnd(lines, k));
    } else {
      OccursSnoc(lines);
      BlockEndIsNextKey(pre, k);
      var i :| BlockAt(pre, k, i, BlockEnd(pre, k));
      if lines[n].TextLine? && LastKey(pre) == Some(k) {
        BlockExtends(lines, k, i);
      } else {
        BlockCloses(lines, k, i);
      }
    }
  }

  /** A text line after the last key line extends its block. */
  lemma BlockExtends(lines: seq<Line>, k: string, i: nat)
    requires lines != [] && lines[|lines| - 1].TextLine?
    requires var pre := lines[..|lines| - 1]; LastKey(pre) == Some(k) && BlockAt(pre, k, i, BlockEnd(pre, k))
    ensures BlockAt(lines, k, i, BlockEnd(lines, k))
  {
    var n := |lines| - 1;
    var pre := lines[..n];
    assert lines[i] == pre[i];
    forall j | i < j < |lines| ensures lines[j].TextLine? {
      if j < n { assert lines[j] == pre[j]; }
    }
  }

  /** Any other line leaves a closed block as it was. */
  lemma BlockCloses(lines: seq<Line>, k: string, i: nat)
    requires lines != []
    requires var n := |lines| - 1; var pre := lines[..n];
             && !(lines[n].KeyLine? && lines[n].key == k)
             && !(lines[n].TextLine? && LastKey(pre) == Some(k))
             && BlockAt(pre, k, i, BlockEnd(pre, k))
    ensures BlockAt(lines, k, i, BlockEnd(lines, k))
  {
    var n := |lines| - 1;
    var pre := lines[..n];
    var e := BlockEnd(pre, k);
    assert BlockEnd(lines, k) == e;
    assert lines[i] == pre[i];
    assert forall j :: 0 <= j < n ==> lines[j] == pre[j];
  }

  /** The value stored for a key that is no longer current is the join of the
      pieces of the lines before the end of its block: the buffer as it was
      when the next key line arrived. */
  lemma {:induction false} ScanValues(lines: seq<Line>)
    ensures var st := Scan(lines);
            forall k :: k in st.result && Some(k) != st.current ==>
              st.result[k] == Join(Pieces(lines[..BlockEnd(lines, k)]), NewLine)
  {
    if lines != [] {
      var n := |lines| - 1;
      var pre := lines[..n];
      ScanValues(pre);
      ScanFacts(pre);
      var st := Scan(pre);
      var st' := Scan(lines);
      assert st' == ScanLine(st, lines[n]);
      forall k | k in st'.result && Some(k) != st'.current
        ensures st'.result[k] == Join(Pieces(lines[..BlockEnd(lines, k)]), NewLine)
      {
        assert BlockEnd(lines, k) == BlockEnd(pre, k);
        if lines[n].KeyLine? && st.current == Some(k) {
          LastBlockEnd(pre);
          assert lines[..n] == pre;
        } else {
          assert lines[..BlockEnd(pre, k)] == pre[..BlockEnd(pre, k)];
        }
      }
    }
  }

  /** A join of a prefix of the pieces stays one as more pieces arrive. */
  lemma JoinOfPrefixGrows(v: string, pieces: seq<string>, more: seq<string>)
    requires JoinOfPrefix(v, pieces) && pieces <= more
    ensures JoinOfPrefix(v, more)
  {
    var m :| 1 <= m <= |pieces| && v == Join(pieces[..m], NewLine);
    assert more[..m] == pieces[..m];
  }

  /** `parsePrefixedLines`: throws on the empty string; otherwise maps each
      key to the newline-join of all pieces from the first key line to the
      end of that key's last block, because the buffer is never reset. */
  function ParsePrefixedLines(text: string): (r: Result<map<string, string>, string>)
    ensures text == [] <==> r.Err?
    ensures r.Ok? ==> ParsedLines(Lines(text), r.value)
  {
    if text == [] then Err("Input text must be a non-empty string")
    else
      FinishFacts(Lines(text));
      Ok(Finish(Scan(Lines(text))))
  }

  /** What the parser's result holds for the lines `ls`: the keys are the
      keys of the key lines; each maps to the join of the pieces up to the end
      of its last block, which joins a non-empty prefix of all pieces; the
      last key maps to the join of all pieces. */
  ghost predicate ParsedLines(ls: seq<Line>, m: map<string, string>) {
    && (forall k :: k in m <==> KeyOccurs(ls, k))
    && (forall k :: k in m ==> m[k] == Join(Pieces(ls[..BlockEnd(ls, k)]), NewLine))
    && (forall k :: k in m ==> JoinOfPrefix(m[k], Pieces(ls)))
    && (LastKey(ls).Some? ==> m[LastKey(ls).value] == Join(Pieces(ls), NewLine))
  }

  /** The map left after the last line holds `ParsedLines`. */
  lemma FinishFacts(ls: seq<Line>)
    ensures ParsedLines(ls, Finish(Scan(ls)))
  {
    ScanFacts(ls);
    ScanValues(ls);
    var st := Scan(ls);
    assert Pieces(ls)[..|Pieces(ls)|] == Pieces(ls);
    if st.current.Some? {
      LastBlockEnd(ls);
      assert ls[..|ls|] == ls;
    }
  }

  /** Two joins of prefixes of the same pieces: one starts with the other. */
  lemma JoinsOfPrefixesNested(v1: string, v2: string, ps: seq<string>)
    requires JoinOfPrefix(v1, ps) && JoinOfPrefix(v2, ps)
    ensures StartsWith(v1, v2) || StartsWith(v2, v1)
  {
    var a :| 1 <= a <= |ps| && v1 == Join(ps[..a], NewLine);
    var b :| 1 <= b <= |ps| && v2 == Join(ps[..b], NewLine);
    if a <= b {
      JoinPrefix(ps[..a], ps[a..b], NewLine);
      assert ps[..a] + ps[a..b] == ps[..b];
    } else {
      JoinPrefix(ps[..b], ps[b..a], NewLine);
      assert ps[..b] + ps[b..a] == ps[..a];
    }
  }

  /** Successive stored values are prefixes of one another: of any two values
      in the result, one starts with the other. */
  lemma StoredValuesAreNested(text: string, k1: string, k2: string)
    requires ParsePrefixedLines(text).Ok?
    requires k1 in ParsePrefixedLines(text).value && k2 in ParsePrefixedLines(text).value
    ensures var m := ParsePrefixedLines(text).value;
            StartsWith(m[k1], m[k2]) || StartsWith(m[k2], m[k1])
  {
    var m := ParsePrefixedLines(text).value;
    JoinsOfPrefixesNested(m[k1], m[k2], Pieces(Lines(text)));
  }

  /** Lines before the first key line are discarded: they contribute no piece. */
  lemma {:induction false} LeadingTextDiscarded(pre: seq<Line>, rest: seq<Line>)
    requires !HasKey(pre)
    ensures Pieces(pre + rest) == Pieces(rest)
    decreases |rest|
  {
    if rest == [] {
      assert pre + rest == pre;
      PiecesWithoutKey(pre);
    } else {
      var n := |rest| - 1;
      LeadingTextDiscarded(pre, rest[..n]);
      assert (pre + rest)[..|pre + rest| - 1] == pre + rest[..n];
      assert (pre + rest)[|pre + rest| - 1] == rest[n];
      assert HasKey(pre + rest[..n]) <==> HasKey(rest[..n]) by {
        if HasKey(pre + rest[..n]) {
          var i :| 0 <= i < |pre + rest[..n]| && (pre + rest[..n])[i].KeyLine?;
          assert forall j :: 0 <= j < |pre| ==> (pre + rest[..n])[j] == pre[j];
          assert rest[..n][i - |pre|] == (pre + rest[..n])[i];
        }
        if HasKey(rest[..n]) {
          var i :| 0 <= i < n && rest[..n][i].KeyLine?;
          assert (pre + rest[..n])[|pre| + i] == rest[..n][i];
        }
      }
    }
  }

  lemma {:induction false} PiecesWithoutKey(lines: seq<Line>)
    requires !HasKey(lines)
    ensures Pieces(lines) == []
  {
    if lines != [] {
      var n := |lines| - 1;
      assert !HasKey(lines[..n]) by {
        assert forall j :: 0 <= j < n ==> lines[..n][j] == lines[j];
      }
      PiecesWithoutKey(lines[..n]);
      assert !lines[n].KeyLine?;
    }
  }

  // ---------------------------------------------------------------------
  // Knowledge sources
  // ---------------------------------------------------------------------

  /** `d` is one of the data sources of some message of `messages`. */
  ghost predicate SourceOf(messages: seq<Message>, d: Doc) {
    exists i :: 0 <= i < |messages| && messages[i].data.dataSources.Some? && d in messages[i].data.dataSources.value
  }

  /** `getDocumentsInConversation` over a message list: the data sources of
      every message that has them, concatenated in message order. */
  function MessageDocuments(messages: seq<Message>): (docs: seq<Doc>)
    ensures forall d :: d in docs <==> SourceOf(messages, d)
  {
    if messages == [] then []
    else
      var rest := MessageDocuments(messages[1..]);
      SourceOfCons(messages);
      match messages[0].data.dataSources
      case Some(ds) => ds + rest
      case None => rest
  }

  /** The sources of a message list are those of its first message and those of the rest. */
  lemma SourceOfCons(messages: seq<Message>)
    requires messages != []
    ensures forall d :: SourceOf(messages, d) <==>
              (messages[0].data.dataSources.Some? && d in messages[0].data.dataSources.value)
              || SourceOf(messages[1..], d)
  {
    forall d | SourceOf(messages, d) && !(messages[0].data.dataSources.Some? && d in messages[0].data.dataSources.value)
      ensures SourceOf(messages[1..], d)
    {
      var i :| 0 <= i < |messages| && messages[i].data.dataSources.Some? && d in messages[i].data.dataSources.value;
      assert messages[1..][i - 1] == messages[i];
    }
    forall d | SourceOf(messages[1..], d)
      ensures SourceOf(messages, d)
    {
      var i :| 0 <= i < |messages[1..]| && messages[1..][i].data.dataSources.Some? && d in messages[1..][i].data.dataSources.value;
      assert messages[i + 1] == messages[1..][i];
    }
  }

  /** One message contributes exactly its own data sources. */
  lemma MessageDocumentsOne(m: Message)
    ensures MessageDocuments([m]) == m.data.dataSources.GetOr([])
  {
    assert [m][1..] == [];
  }

  /** Collecting is compatible with concatenating message lists. */
  lemma {:induction false} MessageDocumentsAppend(a: seq<Message>, b: seq<Message>)
    ensures MessageDocuments(a + b) == MessageDocuments(a) + MessageDocuments(b)
  {
    if a == [] {
      assert a + b == b;
    } else {
      assert (a + b)[0] == a[0];
      assert (a + b)[1..] == a[1..] + b;
      MessageDocumentsAppend(a[1..], b);
    }
  }

  /** `getDocumentsInConversation`: no conversation gives no documents, and a
      conversation gives exactly the data sources of its messages. */
  function DocumentsInConversation(conversation: Option<Conversation>): (docs: seq<Doc>)
    ensures conversation.None? ==> docs == []
    ensures conversation.Some? ==> forall d :: d in docs <==> SourceOf(conversation.value.messages, d)
  {
    match conversation
    case Some(c) => MessageDocuments(c.messages)
    case None => []
  }

  /** The id text of a data source; a missing id prints as `undefined`. */
  function IdText(id: Option<string>): string {
    match id
    case Some(s) => s
    case None => "undefined"
  }

  /** A source already carries a location: a key, or an id with a scheme separator after its first character. */
  predicate Located(d: Doc) {
    Present(d.key) || (d.id.Some? && IndexOf(d.id.value, "://") > 0)
  }

  /** One knowledge source: located sources are kept, the others are given an S3 id. */
  function KnowledgeSource(d: Doc): (r: Doc)
    ensures Located(d) <==> r == d
    ensures !Located(d) ==> r == d.(id := Some("s3://" + IdText(d.id)))
  {
    if Located(d) then d else d.(id := Some("s3://" + IdText(d.id)))
  }

  /** The knowledge sources of an assistant created in a conversation. */
  function Knowledge(conversation: Option<Conversation>): (ks: seq<Doc>)
    ensures |ks| == |DocumentsInConversation(conversation)|
    ensures forall i :: 0 <= i < |ks| ==> ks[i] == KnowledgeSource(DocumentsInConversation(conversation)[i])
  {
    var raw := DocumentsInConversation(conversation);
    seq(|raw|, i requires 0 <= i < |raw| => KnowledgeSource(raw[i]))
  }

  // ---------------------------------------------------------------------
  // parseAssistant
  // ---------------------------------------------------------------------

  /** `replace(/[^a-zA-Z0-9]+/g, '')`: every run of other characters removed. */
  function StripNonAlnum(s: string): (r: string)
    ensures r == Keep(s, IsAlnum)
    ensures forall k :: 0 <= k < |r| ==> IsAlnum(r[k])
    ensures |r| <= |s|
    ensures (forall k :: 0 <= k < |s| ==> IsAlnum(s[k])) ==> r == s
  {
    if s == [] then []
    else if IsAlnum(s[0]) then [s[0]] + StripNonAlnum(s[1..])
    else StripNonAlnum(s[1..])
  }

  lemma StripNonAlnumIdempotent(s: string)
    ensures StripNonAlnum(StripNonAlnum(s)) == StripNonAlnum(s)
  {
  }

  datatype Provider = Amplify

  datatype Access = Access(read: bool, write: bool)

  /** A normalised assistant definition. `fields` holds every parsed field
      other than the ones the normaliser sets itself. */
  datatype AssistantDefinition = AssistantDefinition(
    fields: map<string, Value>,
    instructions: string,
    provider: Provider,
    tags: seq<string>,
    tools: seq<string>,
    dataSources: seq<Doc>,
    access: Access)

  /** The fields the normaliser sets regardless of the input. */
  const FixedKeys: set<string> := {"instructions", "provider", "tags", "tools", "dataSources", "data"}

  /** The parsed definition: `JSON.parse` (the parameter `jsonParse`) when it
      yields an object, else the `key: value` parser when JSON fails. */
  function DefinitionObject(definitionStr: string, jsonParse: string -> Option<Value>): (o: Option<map<string, Value>>)
    ensures jsonParse(definitionStr).Some? && jsonParse(definitionStr).value.Obj? ==>
              o == Some(jsonParse(definitionStr).value.fields)
    ensures jsonParse(definitionStr).Some? && !jsonParse(definitionStr).value.Obj? ==> o.None?
    ensures jsonParse(definitionStr).None? && definitionStr == [] ==> o.None?
    ensures jsonParse(definitionStr).None? && definitionStr != [] ==>
              && o.Some? && o.value.Keys == ParsePrefixedLines(definitionStr).value.Keys
              && forall k :: k in o.value ==> o.value[k] == Str(ParsePrefixedLines(definitionStr).value[k])
  {
    match jsonParse(definitionStr)
    case Some(Obj(m)) => Some(m)
    case Some(_) => None
    case None =>
      match ParsePrefixedLines(definitionStr)
      case Ok(pm) => Some(map k | k in pm :: Str(pm[k]))
      case Err(_) => None
  }

  /** `definition.instructions` as a string: strings stay, anything else is stringified. */
  function AsText(v: Value, stringify: Value -> string): string {
    match v
    case Str(s) => s
    case _ => stringify(v)
  }

  /** The instructions after the fallback: the instructions if truthy, else
      a truthy description, else the raw definition string. */
  function Instructions(m: map<string, Value>, definitionStr: string, stringify: Value -> string): string {
    if TruthyField(m, "instructions") then AsText(m["instructions"], stringify)
    else if TruthyField(m, "description") then AsText(m["description"], stringify)
    else definitionStr
  }

  /** The normalisation `parseAssistant` applies to a definition object `m`;
      None stands for the throw on a truthy name that is not a string. */
  function Normalise(m: map<string, Value>, definitionStr: string, stringify: Value -> string,
                     conversation: Option<Conversation>): (r: Option<AssistantDefinition>)
    ensures r.None? <==> TruthyField(m, "name") && !m["name"].Str?
    ensures r.Some? ==>
              && r.value.provider == Amplify
              && r.value.tags == [] && r.value.tools == []
              && r.value.access == Access(true, true)
              && r.value.dataSources == Knowledge(conversation)
              && r.value.instructions == Instructions(m, definitionStr, stringify)
              && r.value.fields.Keys == m.Keys - FixedKeys
              && (TruthyField(m, "name") ==> r.value.fields["name"] == Str(StripNonAlnum(m["name"].s)))
              && (forall k :: k in m && k !in FixedKeys && !(k == "name" && TruthyField(m, "name")) ==> r.value.fields[k] == m[k])
  {
    if TruthyField(m, "name") && !m["name"].Str? then None
    else
      var named := if TruthyField(m, "name") then m["name" := Str(StripNonAlnum(m["name"].s))] else m;
      Some(AssistantDefinition(
        named - FixedKeys,
        Instructions(m, definitionStr, stringify),
        Amplify, [], [],
        Knowledge(conversation),
        Access(true, true)))
  }

  /** `parseAssistant`: None stands for the `{}` returned when parsing or
      normalising throws. */
  function ParseAssistant(definitionStr: string, jsonParse: string -> Option<Value>,
                          stringify: Value -> string, conversation: Option<Conversation>): (r: Option<AssistantDefinition>)
    ensures DefinitionObject(definitionStr, jsonParse).None? ==> r.None?
    ensures r.Some? ==>
              && r.value.provider == Amplify
              && r.value.tags == [] && r.value.tools == []
              && r.value.access == Access(true, true)
              && r.value.dataSources == Knowledge(conversation)
              && r.value.fields.Keys !! FixedKeys
    ensures DefinitionObject(definitionStr, jsonParse).Some? ==>
              var m := DefinitionObject(definitionStr, jsonParse).value;
              // a truthy name that is not a string throws on `replace`
              && (r.None? <==> TruthyField(m, "name") && !m["name"].Str?)
              && (r.Some? ==>
                    && r.value.instructions == Instructions(m, definitionStr, stringify)
                    && r.value.fields.Keys == m.Keys - FixedKeys
                    && (TruthyField(m, "name") ==>
                          r.value.fields["name"] == Str(StripNonAlnum(m["name"].s)))
                    && (forall k :: k in m && k !in FixedKeys && !(k == "name" && TruthyField(m, "name")) ==> r.value.fields[k] == m[k]))
  {
    match DefinitionObject(definitionStr, jsonParse)
    case None => None
    case Some(m) => Normalise(m, definitionStr, stringify, conversation)
  }

  /** A normalised name consists of letters and digits only. */
  lemma ParsedNameIsAlphanumeric(definitionStr: string, jsonParse: string -> Option<Value>,
                                 stringify: Value -> string, conversation: Option<Conversation>)
    requires ParseAssistant(definitionStr, jsonParse, stringify, conversation).Some?
    requires var m := DefinitionObject(definitionStr, jsonParse).value; TruthyField(m, "name")
    ensures var f := ParseAssistant(definitionStr, jsonParse, stringify, conversation).value.fields;
            "name" in f && f["name"].Str? && forall k :: 0 <= k < |f["name"].s| ==> IsAlnum(f["name"].s[k])
  {
    var m := DefinitionObject(definitionStr, jsonParse).value;
    var r := Normalise(m, definitionStr, stringify, conversation);
    assert ParseAssistant(definitionStr, jsonParse, stringify, conversation) == r;
    assert m["name"].Str?;
    var name := StripNonAlnum(m["name"].s);
    assert r.value.fields["name"] == Str(name);
  }
}

=== FILE: base.dfy ===
/** Shared value types: optional values, results, and the JSON values that
    the front end passes around as untyped JavaScript objects. */
module Base {

  /** `undefined` versus a present value. */
  datatype Option<+T> = None | Some(value: T) {
    function GetOr(default: T): T {
      match this
      case Some(v) => v
      case None => default
    }
  }

  /** A computation that either produces a value or throws. */
  datatype Result<+T, +E> = Ok(value: T) | Err(error: E)

  /** A JSON value. Numbers are integers: fractional and NaN values play no
      part in the behaviour modelled here. */
  datatype Value =
    | Null
    | Bool(b: bool)
    | Num(n: int)
    | Str(s: string)
    | Arr(items: seq<Value>)
    | Obj(fields: map<string, Value>)

  /** JavaScript truthiness of a JSON value. */
  predicate Truthy(v: Value) {
    match v
    case Null => false
    case Bool(b) => b
    case Num(n) => n != 0
    case Str(s) => s != []
    case Arr(_) => true
    case Obj(_) => true
  }

  /** `obj.k` is truthy: the key is present and its value is truthy. */
  predicate TruthyField(m: map<string, Value>, k: string) {
    k in m && Truthy(m[k])
  }

  function Min(a: int, b: int): int { if a <= b then a else b }

  /** JavaScript truthiness of an optional string (`undefined` and `""` are falsy). */
  predicate Present(s: Option<string>) {
    s.Some? && s.value != []
  }

  /** `s.filter(p)`: the elements satisfying `p`, in their order. */
  function Keep<T>(s: seq<T>, p: T -> bool): (r: seq<T>)
    ensures |r| <= |s|
    ensures forall i :: 0 <= i < |r| ==> r[i] in s && p(r[i])
    ensures forall i :: 0 <= i < |s| && p(s[i]) ==> s[i] in r
  {
    if s == [] then []
    else if p(s[0]) then [s[0]] + Keep(s[1..], p)
    else Keep(s[1..], p)
  }

  /** Filtering works piecewise, so the kept elements keep their order. */
  lemma {:induction false} KeepAppend<T>(a: seq<T>, b: seq<T>, p: T -> bool)
    ensures Keep(a + b, p) == Keep(a, p) + Keep(b, p)
  {
    if a == [] {
      assert a + b == b;
    } else {
      assert (a + b)[0] == a[0];
      assert (a + b)[1..] == a[1..] + b;
      KeepAppend(a[1..], b, p);
    }
  }

  /** Filtering a list whose elements all pass keeps it whole. */
  lemma {:induction false} KeepAll<T>(s: seq<T>, p: T -> bool)
    requires forall i :: 0 <= i < |s| ==> p(s[i])
    ensures Keep(s, p) == s
  {
    if s != [] {
      KeepAll(s[1..], p);
    }
  }
}

=== FILE: chat.dfy ===
/** The conversation data model the chat components share: messages with
    their optional data, attached documents (data sources) and conversations. */
module Chat {
  import opened Base

  datatype Role = User | Assistant | System

  /** Document metadata; only the token count is read by the modelled code. */
  datatype Metadata = Metadata(totalTokens: Option<nat>)

  /** The `{}` that stands in for missing metadata. */
  const EmptyMetadata := Metadata(None)

  /** An attached document or message data source. `key` is the storage key
      of an uploaded file; `id` is the identifier sent to the chat API. */
  datatype Doc = Doc(
    id: Option<string>,
    key: Option<string>,
    docType: string,
    name: Option<string>,
    metadata: Option<Metadata>)

  /** The optional `data` record of a message. `rest` holds every field the
      modelled code does not read. */
  datatype MessageData = MessageData(
    rating: Option<int>,
    dataSources: Option<seq<Doc>>,
    state: Option<Value>,
    rest: map<string, Value>)

  /** `ident` stands for the JavaScript object identity of the message, so
      two distinct message objects have distinct `ident`s. */
  datatype Message = Message(
    ident: nat,
    role: Role,
    content: string,
    data: MessageData,
    codeData: Option<map<string, Value>>)

  datatype Conversation = Conversation(
    id: string,
    messages: seq<Message>,
    folderId: Option<string>,
    tags: seq<string>,
    codeInterpreterAssistantId: Option<string>)
}

=== FILE: chat_message.dfy ===
/** Editing the message list of the selected conversation from a rendered
    message (components/Chat/ChatMessage.tsx): deleting a message together
    with the assistant turn that answers it, forking the conversation at a
    message, and rating a message. */
module ChatMessage {
  import opened Base
  import opened Chat

  /** `messages.findIndex(elm => elm === message)`: identity is compared
      through `ident`. */
  function FindMessage(messages: seq<Message>, target: Message): (i: int)
    ensures -1 <= i < |messages|
    ensures i >= 0 ==> messages[i].ident == target.ident
    ensures forall k :: 0 <= k < |messages| && (i == -1 || k < i) ==> messages[k].ident != target.ident
  {
    if messages == [] then -1
    else if messages[0].ident == target.ident then 0
    else
      var j := FindMessage(messages[1..], target);
      assert forall k :: 1 <= k < |messages| ==> messages[k] == messages[1..][k - 1];
      if j == -1 then -1 else j + 1
  }

  // ---------------------------------------------------------------------
  // The deleted range
  // ---------------------------------------------------------------------

  /** The `for` loop over `i` from its start: stops at the first user message,
      and otherwise leaves `nextUserIndex` at the last index. */
  function ScanForUser(messages: seq<Message>, i: nat): (j: nat)
    requires i < |messages|
    ensures i <= j < |messages|
    ensures messages[j].role == User || j == |messages| - 1
    ensures forall k :: i <= k < j ==> messages[k].role != User
    decreases |messages| - i
  {
    if messages[i].role == User || i == |messages| - 1 then i else ScanForUser(messages, i + 1)
  }

  /** An assistant reply directly follows the message at `f`. */
  predicate AnsweredAt(messages: seq<Message>, f: nat) {
    f + 1 < |messages| && messages[f + 1].role == Assistant
  }

  /** The range rule the code implements: the target alone unless an
      assistant reply follows; otherwise up to the next user message, except
      that a user message in the last position is swallowed as well. */
  predicate AsWrittenBlockEnd(messages: seq<Message>, f: nat, e: nat) {
    && f < e <= |messages|
    && (!AnsweredAt(messages, f) ==> e == f + 1)
    && (AnsweredAt(messages, f) ==>
          && (e == |messages| || (e < |messages| - 1 && messages[e].role == User))
          && forall k :: f < k < e && k < |messages| - 1 ==> messages[k].role != User)
  }

  /** The end of the range removed by `handleDeleteMessage` as written,
      including the `nextUserIndex === messages.length - 1` adjustment. */
  function DeleteEndAsWritten(messages: seq<Message>, f: nat): (e: nat)
    requires f < |messages|
    ensures AsWrittenBlockEnd(messages, f, e)
  {
    var n := |messages|;
    var next := if f + 1 < n then ScanForUser(messages, f + 1) else f + 1;
    var adjusted := if next == n - 1 then n else next;
    if f < n - 1 && messages[f + 1].role == Assistant && adjusted - f > 0 then adjusted else f + 1
  }

  /** The range rule the code is evidently meant to implement: the target
      alone unless an assistant reply follows; otherwise everything up to,
      but not including, the next user message, or to the end. */
  predicate BlockEnd(messages: seq<Message>, f: nat, e: nat) {
    && f < e <= |messages|
    && (!AnsweredAt(messages, f) ==> e == f + 1)
    && (AnsweredAt(messages, f) ==>
          && (e == |messages| || messages[e].role == User)
          && forall k :: f < k < e ==> messages[k].role != User)
  }

  /** `handleDeleteMessage` as written: a message that is not found changes
      nothing; otherwise the range from the target to the end the rule
      picks is spliced out. */
  function DeleteMessageAsWritten(messages: seq<Message>, target: Message): (r: seq<Message>)
    ensures FindMessage(messages, target) == -1 ==> r == messages
    ensures FindMessage(messages, target) >= 0 ==>
              var f := FindMessage(messages, target);
              exists e: nat :: AsWrittenBlockEnd(messages, f, e) && r == messages[..f] + messages[e..]
  {
    var f := FindMessage(messages, target);
    if f < 0 then messages else messages[..f] + messages[DeleteEndAsWritten(messages, f)..]
  }

  /** The first user message at or after `i`, or `|messages|`. */
  function NextUser(messages: seq<Message>, i: nat): (j: nat)
    requires i <= |messages|
    ensures i <= j <= |messages|
    ensures j < |messages| ==> messages[j].role == User
    ensures forall k :: i <= k < j ==> messages[k].role != User
    decreases |messages| - i
  {
    if i == |messages| || messages[i].role == User then i else NextUser(messages, i + 1)
  }

  /** The end of the range under the intended rule. */
  function DeleteEnd(messages: seq<Message>, f: nat): (e: nat)
    requires f < |messages|
    ensures BlockEnd(messages, f, e)
  {
    if AnsweredAt(messages, f) then NextUser(messages, f + 1) else f + 1
  }

  /** The corrected `handleDeleteMessage`: a message that is not found
      changes nothing; otherwise the target and the assistant turn that
      answers it are removed, and the next user message stays. */
  function DeleteMessage(messages: seq<Message>, target: Message): (r: seq<Message>)
    ensures FindMessage(messages, target) == -1 ==> r == messages
    ensures FindMessage(messages, target) >= 0 ==>
              var f := FindMessage(messages, target);
              exists e: nat :: BlockEnd(messages, f, e) && r == messages[..f] + messages[e..]
  {
    var f := FindMessage(messages, target);
    if f < 0 then messages else messages[..f] + messages[DeleteEnd(messages, f)..]
  }

  /** Deleting keeps every message before the target and every user message
      after it, in order: the removed range holds the target and non-user
      messages only. */
  lemma DeleteKeepsLaterUsers(messages: seq<Message>, target: Message, k: nat)
    requires FindMessage(messages, target) >= 0
    requires FindMessage(messages, target) < k < |messages| && messages[k].role == User
    ensures var f := FindMessage(messages, target);
            var r := DeleteMessage(messages, target);
            exists j :: f <= j < |r| && r[j] == messages[k] && r[..f] == messages[..f]
  {
    var f := FindMessage(messages, target);
    var e := DeleteEnd(messages, f);
    var r := DeleteMessage(messages, target);
    assert e <= k;
    assert r[f + (k - e)] == messages[k];
  }

  /** The two rules agree except when the only later user message is the
      last one and an assistant reply follows the target: then the code
      removes that user message too. */
  lemma DeleteEndsAgree(messages: seq<Message>, f: nat)
    requires f < |messages|
    ensures DeleteEndAsWritten(messages, f) != DeleteEnd(messages, f) <==>
              AnsweredAt(messages, f) && NextUser(messages, f + 1) == |messages| - 1
  {
    var n := |messages|;
    if AnsweredAt(messages, f) {
      var s := ScanForUser(messages, f + 1);
      var u := NextUser(messages, f + 1);
      if u < n {
        assert s == u;
      } else {
        assert s == n - 1;
      }
    }
  }

  /** A conversation that shows the discrepancy: deleting the first question
      of [question, answer, question] removes all three messages, where the
      rule keeps the second question. */
  lemma DeleteAsWrittenSwallowsLastQuestion()
    ensures var d := MessageData(None, None, None, map[]);
            var ms := [Message(0, User, "q1", d, None), Message(1, Assistant, "a1", d, None),
                       Message(2, User, "q2", d, None)];
            && DeleteMessageAsWritten(ms, ms[0]) == []
            && DeleteMessage(ms, ms[0]) == [ms[2]]
  {
    var d := MessageData(None, None, None, map[]);
    var ms := [Message(0, User, "q1", d, None), Message(1, Assistant, "a1", d, None),
               Message(2, User, "q2", d, None)];
    assert FindMessage(ms, ms[0]) == 0;
    assert ScanForUser(ms, 1) == 2;
    assert NextUser(ms, 1) == 2;
  }

  // ---------------------------------------------------------------------
  // Forking and rating
  // ---------------------------------------------------------------------

  /** `handleForkConversation`: a copy of the conversation under a new id
      holding the messages up to and including `messageIndex`, appended to
      the conversation list. */
  function Fork(conversations: seq<Conversation>, conv: Conversation, messageIndex: nat, newId: string)
    : (r: seq<Conversation>)
    ensures |r| == |conversations| + 1 && r[..|conversations|] == conversations
    ensures var fork := r[|conversations|];
            && fork.id == newId
            && fork.messages <= conv.messages
            && |fork.messages| == Min(messageIndex + 1, |conv.messages|)
            && fork.(id := conv.id, messages := conv.messages) == conv
  {
    var n := Min(messageIndex + 1, |conv.messages|);
    conversations + [conv.(id := newId, messages := conv.messages[..n])]
  }

  /** The fork ends with the message it was made from. */
  lemma ForkEndsAtMessage(conversations: seq<Conversation>, conv: Conversation, messageIndex: nat, newId: string)
    requires messageIndex < |conv.messages|
    ensures var fork := Fork(conversations, conv, messageIndex, newId)[|conversations|];
            |fork.messages| == messageIndex + 1 && fork.messages[messageIndex] == conv.messages[messageIndex]
  {
  }

  /** `handleRatingSubmit`: the rated message (the rendered `message`) with
      `data.rating` set is stored at `messageIndex`. */
  function Rate(conv: Conversation, messageIndex: nat, message: Message, rating: int): (c: Conversation)
    requires messageIndex < |conv.messages|
    ensures |c.messages| == |conv.messages|
    ensures forall k :: 0 <= k < |c.messages| && k != messageIndex ==> c.messages[k] == conv.messages[k]
    ensures c.messages[messageIndex].data.rating == Some(rating)
    ensures c.messages[messageIndex].data.(rating := message.data.rating) == message.data
    ensures c.messages[messageIndex].(data := message.data) == message
    ensures c.(messages := conv.messages) == conv
  {
    var rated := message.(data := message.data.(rating := Some(rating)));
    conv.(messages := conv.messages[messageIndex := rated])
  }

  /** Rating the same message twice: the second rating wins. */
  lemma RateTwice(conv: Conversation, messageIndex: nat, message: Message, r1: int, r2: int)
    requires messageIndex < |conv.messages|
    ensures Rate(Rate(conv, messageIndex, message, r1), messageIndex, message, r2)
            == Rate(conv, messageIndex, message, r2)
  {
  }
}

=== FILE: home.dfy ===
/** The list operations of the home page (pages/api/home/home.tsx): the
    display name derived from an e-mail address, folder creation, renaming
    and deletion with their effect on conversations, prompts and workflows,
    the feature-flag toggle, and the list of models offered to the user. */
module Home {
  import opened Base
  import opened Text
  import opened Chat

  // ---------------------------------------------------------------------
  // getName
  // ---------------------------------------------------------------------

  const Anonymous := "Anonymous"

  /** The longest display name. */
  const NameLimit := 28

  /** `part.charAt(0).toUpperCase() + part.slice(1)`. */
  function Capitalise(part: string): (r: string)
    ensures |r| == |part|
    ensures part != [] ==> r[0] == ToUpper(part[0]) && r[1..] == part[1..]
  {
    if part == [] then [] else [ToUpper(part[0])] + part[1..]
  }

  function CapitaliseAll(parts: seq<string>): (r: seq<string>)
    ensures |r| == |parts|
    ensures forall i :: 0 <= i < |parts| ==> r[i] == Capitalise(parts[i])
  {
    if parts == [] then [] else [Capitalise(parts[0])] + CapitaliseAll(parts[1..])
  }

  /** The local part of an address: the text before the first `@`. */
  function LocalPart(email: string): (name: string)
    ensures '@' !in name
    ensures StartsWith(email, name)
    ensures |name| < |email| ==> email[|name|] == '@'
  {
    Split(email, '@')[0]
  }

  /** The name spelled out character by character: every dot becomes a
      space and every character that starts a dot-separated part is
      upper-cased. */
  function Spelled(name: string): (r: string)
    ensures |r| == |name|
  {
    seq(|name|, k requires 0 <= k < |name| =>
      if name[k] == '.' then ' '
      else if k == 0 || name[k - 1] == '.' then ToUpper(name[k])
      else name[k])
  }

  /** A name without dots is spelled as its capitalisation. */
  lemma SpelledWithoutDot(name: string)
    requires '.' !in name
    ensures Spelled(name) == Capitalise(name)
  {
  }

  /** Spelling splits at the first dot. */
  lemma SpelledAtDot(name: string, i: nat)
    requires i < |name| && name[i] == '.' && '.' !in name[..i]
    ensures Spelled(name) == Capitalise(name[..i]) + " " + Spelled(name[i + 1..])
  {
    var tail := name[i + 1..];
    var joined := Capitalise(name[..i]) + " " + Spelled(tail);
    forall k | 0 <= k < |name|
      ensures joined[k] == Spelled(name)[k]
    {
      if k < i {
        assert name[..i][k] == name[k];
        if k > 0 { assert name[..i][k - 1] == name[k - 1]; }
      } else if k > i {
        assert tail[k - i - 1] == name[k];
        if k - i - 1 > 0 { assert tail[k - i - 2] == name[k - 1]; }
      }
    }
  }

  /** Joining a list of at least two parts. */
  lemma JoinCons(a: string, rest: seq<string>, sep: string)
    requires rest != []
    ensures Join([a] + rest, sep) == a + sep + Join(rest, sep)
  {
    assert ([a] + rest)[1..] == rest;
  }

  /** Splitting on dots, capitalising each part and joining with spaces
      spells the name out. */
  lemma {:induction false} CapitalisedJoinIsSpelled(name: string)
    ensures Join(CapitaliseAll(Split(name, '.')), " ") == Spelled(name)
    decreases |name|
  {
    var i := CharIndexFrom(name, '.', 0);
    if i == |name| {
      assert Split(name, '.') == [name];
      assert CapitaliseAll([name]) == [Capitalise(name)];
      SpelledWithoutDot(name);
    } else {
      var head, tail := name[..i], name[i + 1..];
      var rest := Split(tail, '.');
      assert Split(name, '.') == [head] + rest;
      var caps := CapitaliseAll([head] + rest);
      assert caps == [Capitalise(head)] + CapitaliseAll(rest);
      JoinCons(Capitalise(head), CapitaliseAll(rest), " ");
      CapitalisedJoinIsSpelled(tail);
      SpelledAtDot(name, i);
    }
  }

  /** A spelled name has no dot, and no `@` unless the name has one. */
  lemma SpelledAvoids(name: string)
    ensures '.' !in Spelled(name)
    ensures '@' !in name ==> '@' !in Spelled(name)
  {
    forall k | 0 <= k < |name|
      ensures Spelled(name)[k] != '.' && (name[k] != '@' ==> Spelled(name)[k] != '@')
    {
    }
  }

  /** `getName`: "Anonymous" for a missing or empty address; otherwise the
      local part spelled out, cut to 28 characters. */
  function GetName(email: Option<string>): (r: string)
    ensures !Present(email) ==> r == Anonymous
    ensures Present(email) ==>
              var name := LocalPart(email.value);
              |r| == Min(NameLimit, |name|) && r == Spelled(name)[..|r|]
    ensures |r| <= NameLimit && '.' !in r && '@' !in r
  {
    if !Present(email) then Anonymous
    else
      var name := LocalPart(email.value);
      var spelled := Join(CapitaliseAll(Split(name, '.')), " ");
      CapitalisedJoinIsSpelled(name);
      SpelledAvoids(name);
      var r := spelled[..Min(NameLimit, |spelled|)];
      assert forall c :: c in r ==> c in spelled;
      r
  }

  // ---------------------------------------------------------------------
  // Folders
  // ---------------------------------------------------------------------

  datatype FolderType = ChatFolder | PromptFolder | WorkflowFolder

  datatype Folder = Folder(id: string, date: string, name: string, folderType: FolderType)

  /** No folder in the list has identifier `id`. */
  predicate FreshId(folders: seq<Folder>, id: string) {
    forall i :: 0 <= i < |folders| ==> folders[i].id != id
  }

  /** `handleCreateFolder`: the identifier and date are generated outside
      and passed in. Returns the new list and the new folder. */
  function CreateFolder(folders: seq<Folder>, name: string, folderType: FolderType, id: string, date: string)
    : (r: (seq<Folder>, Folder))
    ensures |r.0| == |folders| + 1 && r.0[..|folders|] == folders && r.0[|folders|] == r.1
    ensures r.1.name == name && r.1.folderType == folderType && r.1.id == id && r.1.date == date
  {
    var folder := Folder(id, date, name, folderType);
    (folders + [folder], folder)
  }

  /** The folder list after `handleDeleteFolder`: every folder with another id, in order. */
  function RemoveFolder(folders: seq<Folder>, id: string): (r: seq<Folder>)
    ensures FreshId(r, id)
    ensures forall i :: 0 <= i < |folders| && folders[i].id != id ==> folders[i] in r
    ensures forall i :: 0 <= i < |r| ==> r[i] in folders
  {
    Keep(folders, (f: Folder) => f.id != id)
  }

  /** Deleting a folder just created under an unused identifier gives back
      the original list. */
  lemma CreateThenRemove(folders: seq<Folder>, name: string, folderType: FolderType, id: string, date: string)
    requires FreshId(folders, id)
    ensures RemoveFolder(CreateFolder(folders, name, folderType, id, date).0, id) == folders
  {
    var p := (f: Folder) => f.id != id;
    var created := CreateFolder(folders, name, folderType, id, date);
    assert created.0 == folders + [created.1];
    KeepAppend(folders, [created.1], p);
    KeepAll(folders, p);
    assert Keep([created.1], p) == [];
  }

  /** `handleUpdateFolder`: the folders with the id are renamed. */
  function UpdateFolder(folders: seq<Folder>, id: string, name: string): (r: seq<Folder>)
    ensures |r| == |folders|
    ensures forall i :: 0 <= i < |r| ==>
              && r[i].(name := folders[i].name) == folders[i]
              && (folders[i].id == id ==> r[i].name == name)
              && (folders[i].id != id ==> r[i] == folders[i])
  {
    seq(|folders|, i requires 0 <= i < |folders| =>
      if folders[i].id == id then folders[i].(name := name) else folders[i])
  }

  /** Renaming twice: the second name wins. */
  lemma UpdateFolderTwice(folders: seq<Folder>, id: string, a: string, b: string)
    ensures UpdateFolder(UpdateFolder(folders, id, a), id, b) == UpdateFolder(folders, id, b)
  {
  }

  /** The type of the first folder with the id (`find(...)?.type`). */
  function FolderTypeOf(folders: seq<Folder>, id: string): (t: Option<FolderType>)
    ensures t.None? <==> FreshId(folders, id)
    ensures t.Some? ==> exists i :: 0 <= i < |folders| && folders[i].id == id && folders[i].folderType == t.value
                                    && FreshId(folders[..i], id)
  {
    if folders == [] then None
    else if folders[0].id == id then
      assert FreshId(folders[..0], id);
      Some(folders[0].folderType)
    else
      var t := FolderTypeOf(folders[1..], id);
      assert forall i :: 1 <= i < |folders| ==> folders[1..][i - 1] == folders[i];
      if t.Some? then
        var i :| 0 <= i < |folders[1..]| && folders[1..][i].id == id && folders[1..][i].folderType == t.value
                 && FreshId(folders[1..][..i], id);
        assert FreshId(folders[..i + 1], id) by {
          forall j | 1 <= j <= i ensures folders[j].id != id {
            assert folders[1..][..i][j - 1] == folders[j];
          }
        }
        t
      else t
  }

  // ---------------------------------------------------------------------
  // Deleting a chat folder
  // ---------------------------------------------------------------------

  /** The conversation is filed in the folder (`c.folderId === folderId`). */
  predicate InFolder(folderId: Option<string>, id: string) {
    folderId == Some(id)
  }

  /** Some conversation of the list has the id. */
  predicate HasConversation(conversations: seq<Conversation>, id: string) {
    exists i :: 0 <= i < |conversations| && conversations[i].id == id
  }

  /** Removing the conversations of a deleted chat folder, and the selection
      afterwards. `newConversation` is the new empty conversation that is selected when
      no conversation is left (None when no default model is configured, in
      which case the selection is not touched). */
  function DeleteChatFolder(conversations: seq<Conversation>, selected: Option<Conversation>,
                            id: string, newConversation: Option<Conversation>): (r: (seq<Conversation>, Option<Conversation>))
    ensures forall i :: 0 <= i < |r.0| ==> r.0[i] in conversations && !InFolder(r.0[i].folderId, id)
    ensures forall i :: 0 <= i < |conversations| && !InFolder(conversations[i].folderId, id) ==> conversations[i] in r.0
    ensures |r.0| > 0 && selected.Some? && HasConversation(r.0, selected.value.id) ==> r.1 == selected
    ensures |r.0| > 0 && !(selected.Some? && HasConversation(r.0, selected.value.id)) ==> r.1 == Some(r.0[|r.0| - 1])
    ensures |r.0| == 0 ==> r.1 == (if newConversation.Some? then newConversation else selected)
  {
    var kept := Keep(conversations, (c: Conversation) => !InFolder(c.folderId, id));
    if |kept| > 0 then
      var stays := selected.Some? && HasConversation(kept, selected.value.id);
      (kept, if stays then selected else Some(kept[|kept| - 1]))
    else
      (kept, if newConversation.Some? then newConversation else selected)
  }

  /** The remaining conversations keep their relative order: removing a
      chat folder from a concatenation removes it from each part. */
  lemma DeleteChatFolderPiecewise(a: seq<Conversation>, b: seq<Conversation>, selected: Option<Conversation>,
                                  id: string, newConversation: Option<Conversation>)
    ensures DeleteChatFolder(a + b, selected, id, newConversation).0
            == DeleteChatFolder(a, selected, id, newConversation).0 + DeleteChatFolder(b, selected, id, newConversation).0
  {
    KeepAppend(a, b, (c: Conversation) => !InFolder(c.folderId, id));
  }

  // ---------------------------------------------------------------------
  // Deleting a prompt folder
  // ---------------------------------------------------------------------

  /** A prompt or assistant. `isAssistant` is the result of `isAssistant(p)`;
      `tags` are `data.tags` (empty when absent); `assistantId` is
      `data.assistant.definition.assistantId`. */
  datatype Prompt = Prompt(
    id: string,
    folderId: Option<string>,
    isAssistant: bool,
    tags: seq<string>,
    assistantId: Option<string>,
    rest: map<string, Value>)

  /** The selected assistant, through its `definition.assistantId`. */
  datatype SelectedAssistant = SelectedAssistant(assistantId: Option<string>)

  /** A reserved system assistant, tagged with the system tag. */
  predicate Reserved(p: Prompt, systemTag: string) {
    p.isAssistant && systemTag in p.tags
  }

  /** The prompts that remain: reserved assistants of the folder are moved
      out of it (folder null), its other prompts are dropped. */
  function RehomePrompts(prompts: seq<Prompt>, id: string, systemTag: string): (r: seq<Prompt>)
    ensures |r| <= |prompts|
    ensures forall i :: 0 <= i < |r| ==> !InFolder(r[i].folderId, id)
    ensures forall i :: 0 <= i < |prompts| && !InFolder(prompts[i].folderId, id) ==> prompts[i] in r
    ensures forall i :: 0 <= i < |prompts| && InFolder(prompts[i].folderId, id) && Reserved(prompts[i], systemTag) ==>
              prompts[i].(folderId := None) in r
    ensures forall i :: 0 <= i < |r| ==>
              || (r[i] in prompts && !InFolder(r[i].folderId, id))
              || (r[i].folderId.None? && r[i].(folderId := Some(id)) in prompts && Reserved(r[i], systemTag))
  {
    if prompts == [] then []
    else
      var p := prompts[0];
      var rest := RehomePrompts(prompts[1..], id, systemTag);
      assert forall i :: 1 <= i < |prompts| ==> prompts[i] == prompts[1..][i - 1];
      if !InFolder(p.folderId, id) then [p] + rest
      else if Reserved(p, systemTag) then
        assert p.(folderId := None).(folderId := Some(id)) == p;
        [p.(folderId := None)] + rest
      else rest
  }

  /** A dropped prompt of the folder refers to the selected assistant
      (`undefined === undefined` counts as a match). */
  predicate DropsSelected(prompts: seq<Prompt>, id: string, systemTag: string, selected: Option<SelectedAssistant>) {
    && selected.Some?
    && exists i :: 0 <= i < |prompts| && InFolder(prompts[i].folderId, id) && !Reserved(prompts[i], systemTag)
                   && prompts[i].assistantId == selected.value.assistantId
  }

  /** Removing the prompts of a deleted prompt folder; the selected assistant
      falls back to the default when one of its prompts is dropped. */
  function DeletePromptFolder(prompts: seq<Prompt>, selected: Option<SelectedAssistant>, id: string,
                              systemTag: string, defaultAssistant: SelectedAssistant)
    : (r: (seq<Prompt>, Option<SelectedAssistant>))
    ensures r.0 == RehomePrompts(prompts, id, systemTag)
    ensures DropsSelected(prompts, id, systemTag, selected) ==> r.1 == Some(defaultAssistant)
    ensures !DropsSelected(prompts, id, systemTag, selected) ==> r.1 == selected
  {
    (RehomePrompts(prompts, id, systemTag),
     if DropsSelected(prompts, id, systemTag, selected) then Some(defaultAssistant) else selected)
  }

  /** No reserved assistant is lost: the kept prompts are the ones outside
      the folder plus the reserved ones inside it. */
  lemma {:induction false} RehomeCount(prompts: seq<Prompt>, id: string, systemTag: string)
    ensures |RehomePrompts(prompts, id, systemTag)|
            == |Keep(prompts, (p: Prompt) => !InFolder(p.folderId, id) || Reserved(p, systemTag))|
  {
    if prompts != [] {
      RehomeCount(prompts[1..], id, systemTag);
    }
  }

  // ---------------------------------------------------------------------
  // Deleting a workflow folder
  // ---------------------------------------------------------------------

  datatype Workflow = Workflow(id: string, folderId: Option<string>, rest: map<string, Value>)

  /** Workflows of a deleted folder are kept and moved out of it. */
  function DeleteWorkflowFolder(workflows: seq<Workflow>, id: string): (r: seq<Workflow>)
    ensures |r| == |workflows|
    ensures forall i :: 0 <= i < |r| ==>
              && r[i].(folderId := workflows[i].folderId) == workflows[i]
              && !InFolder(r[i].folderId, id)
              && (!InFolder(workflows[i].folderId, id) ==> r[i] == workflows[i])
  {
    seq(|workflows|, i requires 0 <= i < |workflows| =>
      if InFolder(workflows[i].folderId, id) then workflows[i].(folderId := None) else workflows[i])
  }

  /** Deleting a workflow folder twice is the same as once. */
  lemma DeleteWorkflowFolderIdempotent(workflows: seq<Workflow>, id: string)
    ensures DeleteWorkflowFolder(DeleteWorkflowFolder(workflows, id), id) == DeleteWorkflowFolder(workflows, id)
  {
  }

  // ---------------------------------------------------------------------
  // handleDeleteFolder
  // ---------------------------------------------------------------------

  datatype Workspace = Workspace(
    folders: seq<Folder>,
    conversations: seq<Conversation>,
    prompts: seq<Prompt>,
    workflows: seq<Workflow>,
    selectedConversation: Option<Conversation>,
    selectedAssistant: Option<SelectedAssistant>)

  /** `handleDeleteFolder`: the cascade follows the type of the first folder
      with the id; an unknown id touches nothing but the folder list. */
  function DeleteFolder(ws: Workspace, id: string, systemTag: string, newConversation: Option<Conversation>,
                        defaultAssistant: SelectedAssistant): (r: Workspace)
    ensures r.folders == RemoveFolder(ws.folders, id)
    ensures FolderTypeOf(ws.folders, id) != Some(ChatFolder) ==>
              r.conversations == ws.conversations && r.selectedConversation == ws.selectedConversation
    ensures FolderTypeOf(ws.folders, id) == Some(ChatFolder) ==>
              (r.conversations, r.selectedConversation)
              == DeleteChatFolder(ws.conversations, ws.selectedConversation, id, newConversation)
    ensures FolderTypeOf(ws.folders, id) != Some(PromptFolder) ==>
              r.prompts == ws.prompts && r.selectedAssistant == ws.selectedAssistant
    ensures FolderTypeOf(ws.folders, id) == Some(PromptFolder) ==>
              (r.prompts, r.selectedAssistant)
              == DeletePromptFolder(ws.prompts, ws.selectedAssistant, id, systemTag, defaultAssistant)
    ensures FolderTypeOf(ws.folders, id) != Some(WorkflowFolder) ==> r.workflows == ws.workflows
    ensures FolderTypeOf(ws.folders, id) == Some(WorkflowFolder) ==>
              r.workflows == DeleteWorkflowFolder(ws.workflows, id)
  {
    var cascaded :=
      match FolderTypeOf(ws.folders, id)
      case Some(ChatFolder) =>
        var (cs, sel) := DeleteChatFolder(ws.conversations, ws.selectedConversation, id, newConversation);
        ws.(conversations := cs, selectedConversation := sel)
      case Some(PromptFolder) =>
        var (ps, sel) := DeletePromptFolder(ws.prompts, ws.selectedAssistant, id, systemTag, defaultAssistant);
        ws.(prompts := ps, selectedAssistant := sel)
      case Some(WorkflowFolder) =>
        ws.(workflows := DeleteWorkflowFolder(ws.workflows, id))
      case None => ws;
    cascaded.(folders := RemoveFolder(ws.folders, id))
  }

  /** After deleting a folder nothing refers to it: no folder has its id and
      no conversation, prompt or workflow of its kind is filed in it. */
  lemma DeleteFolderLeavesNoTrace(ws: Workspace, id: string, systemTag: string, newConversation: Option<Conversation>,
                                  defaultAssistant: SelectedAssistant)
    ensures var r := DeleteFolder(ws, id, systemTag, newConversation, defaultAssistant);
            && FreshId(r.folders, id)
            && (FolderTypeOf(ws.folders, id) == Some(ChatFolder) ==>
                  forall i :: 0 <= i < |r.conversations| ==> !InFolder(r.conversations[i].folderId, id))
            && (FolderTypeOf(ws.folders, id) == Some(PromptFolder) ==>
                  forall i :: 0 <= i < |r.prompts| ==> !InFolder(r.prompts[i].folderId, id))
            && (FolderTypeOf(ws.folders, id) == Some(WorkflowFolder) ==>
                  forall i :: 0 <= i < |r.workflows| ==> !InFolder(r.workflows[i].folderId, id))
  {
  }

  // ---------------------------------------------------------------------
  // Feature flags
  // ---------------------------------------------------------------------

  /** `handleToggleFeature`: `features[name] = !features[name]`; a missing flag reads as false. */
  function ToggleFeature(flags: map<string, bool>, name: string): (r: map<string, bool>)
    ensures r.Keys == flags.Keys + {name}
    ensures r[name] == !(name in flags && flags[name])
    ensures forall k :: k in flags && k != name ==> r[k] == flags[k]
  {
    flags[name := !(name in flags && flags[name])]
  }

  /** Toggling twice restores a flag that was set, and leaves a missing one false. */
  lemma ToggleTwice(flags: map<string, bool>, name: string)
    ensures name in flags ==> ToggleFeature(ToggleFeature(flags, name), name) == flags
    ensures name !in flags ==> ToggleFeature(ToggleFeature(flags, name), name) == flags[name := false]
  {
  }

  // ---------------------------------------------------------------------
  // Available models
  // ---------------------------------------------------------------------

  /** One entry per `ModelID` value equal to `name`, each carrying that
      model's descriptor from `models`. */
  function Matches<I>(name: string, modelIds: seq<string>, models: string -> I): (r: seq<(string, I)>)
    ensures |r| <= |modelIds|
    ensures forall i :: 0 <= i < |r| ==> r[i] == (name, models(name))
    ensures |r| == multiset(modelIds)[name]
    ensures name !in modelIds ==> r == []
  {
    if modelIds == [] then []
    else
      assert modelIds == [modelIds[0]] + modelIds[1..];
      (if modelIds[0] == name then [(name, models(name))] else []) + Matches(name, modelIds[1..], models)
  }

  function CollectModels<I>(names: seq<string>, modelIds: seq<string>, models: string -> I): (r: seq<(string, I)>)
    ensures forall i :: 0 <= i < |r| ==> r[i].0 in names && r[i].0 in modelIds && r[i].1 == models(r[i].0)
  {
    if names == [] then []
    else
      var m := Matches(names[0], modelIds, models);
      var rest := CollectModels(names[1..], modelIds, models);
      assert forall i :: 0 <= i < |m| ==> m[i].0 == names[0] && (m[i].0 in modelIds);
      m + rest
  }

  /** The `availableModels` effect: no model list for an empty setting;
      otherwise, for each comma-separated id in order, one entry per equal
      `ModelID` value. */
  function AvailableModels<I>(setting: string, modelIds: seq<string>, models: string -> I): (r: Option<seq<(string, I)>>)
    ensures setting == [] <==> r.None?
    ensures r.Some? ==> forall i :: 0 <= i < |r.value| ==>
              r.value[i].0 in Split(setting, ',') && r.value[i].0 in modelIds && r.value[i].1 == models(r.value[i].0)
  {
    if setting == [] then None else Some(CollectModels(Split(setting, ','), modelIds, models))
  }

  predicate Distinct(ids: seq<string>) {
    forall i, j :: 0 <= i < j < |ids| ==> ids[i] != ids[j]
  }

  /** With distinct `ModelID` values a listed id yields exactly one entry
      when it is known and none otherwise. */
  lemma {:induction false} MatchesDistinct<I>(name: string, modelIds: seq<string>, models: string -> I)
    requires Distinct(modelIds)
    ensures Matches(name, modelIds, models) == if name in modelIds then [(name, models(name))] else []
  {
    if modelIds != [] {
      MatchesDistinct(name, modelIds[1..], models);
      if modelIds[0] == name {
        assert name !in modelIds[1..] by {
          assert forall j :: 1 <= j < |modelIds| ==> modelIds[j] == modelIds[1..][j - 1];
        }
      }
    }
  }

  /** The model ids of a list of entries. */
  function Ids<I>(r: seq<(string, I)>): (ids: seq<string>)
    ensures |ids| == |r|
    ensures forall i :: 0 <= i < |r| ==> ids[i] == r[i].0
  {
    if r == [] then [] else [r[0].0] + Ids(r[1..])
  }

  lemma IdsAppend<I>(a: seq<(string, I)>, b: seq<(string, I)>)
    ensures Ids(a + b) == Ids(a) + Ids(b)
  {
    assert forall i :: 0 <= i < |a + b| ==> Ids(a + b)[i] == (Ids(a) + Ids(b))[i];
  }

  /** With distinct `ModelID` values, the ids of the available models are
      the listed ids that are known, in the listed order. */
  lemma {:induction false} CollectedIdsAreKnownListed<I>(names: seq<string>, modelIds: seq<string>, models: string -> I)
    requires Distinct(modelIds)
    ensures Ids(CollectModels(names, modelIds, models)) == Keep(names, (n: string) => n in modelIds)
  {
    if names != [] {
      var m := Matches(names[0], modelIds, models);
      var rest := CollectModels(names[1..], modelIds, models);
      CollectedIdsAreKnownListed(names[1..], modelIds, models);
      MatchesDistinct(names[0], modelIds, models);
      assert CollectModels(names, modelIds, models) == m + rest;
      IdsAppend(m, rest);
    }
  }
}

=== FILE: send_service.dfy ===
/** The pure steps of the chat send service (hooks/useChatSendService.ts):
    the request-mode prefix parser, the message-list update, data-source id
    normalisation, the order in which request option flags are merged, the
    integer part of token costing, and the in-order accumulation of a
    streamed response into the assistant message. */
module SendService {
  import opened Base
  import opened Text
  import opened Chat

  // ---------------------------------------------------------------------
  // Request-mode prefix: `json(...)`, `json!(...)`, `csv(...)`, `fn(...)`
  // ---------------------------------------------------------------------

  datatype Prefix = ChatPrefix | JsonPrefix | JsonSchemaPrefix | CsvPrefix | FnPrefix

  function PrefixWord(p: Prefix): string {
    match p
    case ChatPrefix => "chat"
    case JsonPrefix => "json"
    case JsonSchemaPrefix => "json!"
    case CsvPrefix => "csv"
    case FnPrefix => "fn"
  }

  /** The words that select a structured request mode. */
  function RequestPrefix(word: string): (p: Option<Prefix>)
    ensures p.Some? ==> p.value != ChatPrefix && PrefixWord(p.value) == word
    ensures p.None? ==> forall q :: q != ChatPrefix ==> PrefixWord(q) != word
  {
    if word == "json" then Some(JsonPrefix)
    else if word == "json!" then Some(JsonSchemaPrefix)
    else if word == "csv" then Some(CsvPrefix)
    else if word == "fn" then Some(FnPrefix)
    else None
  }

  /** The result of `parseMessageType`; `J` is the type of the parsed options. */
  datatype ParsedMessage<J> = ParsedMessage(prefix: Prefix, body: string, options: J)

  /** `t` is a request-mode word, a non-empty `)`-free parenthesised argument, and any tail. */
  predicate Decomposes(t: string, p: Prefix, arg: string, rest: string) {
    && p != ChatPrefix
    && t == PrefixWord(p) + "(" + arg + ")" + rest
    && arg != []
    && ')' !in arg
  }

  /** A decomposed message is its prefix word followed by the parenthesised argument and the tail. */
  lemma DecomposedSplit(t: string, p: Prefix, arg: string, rest: string)
    requires Decomposes(t, p, arg, rest)
    ensures var n := |PrefixWord(p)|;
            n <= |t| && t[..n] == PrefixWord(p) && t[n..] == "(" + arg + ")" + rest
  {
    assert t == PrefixWord(p) + ("(" + arg + ")" + rest);
  }

  /** The indexing facts of a decomposed message. */
  lemma DecomposesIndexing(t: string, p: Prefix, arg: string, rest: string)
    requires Decomposes(t, p, arg, rest)
    ensures var n := |PrefixWord(p)|;
            && |t| == n + |arg| + 2 + |rest|
            && t[..n] == PrefixWord(p)
            && t[n] == '('
            && t[n + 1..n + 1 + |arg|] == arg
            && t[n + 1 + |arg|] == ')'
            && t[n + 2 + |arg|..] == rest
            && t[n..] == "(" + arg + ")" + rest
  {
    var n := |PrefixWord(p)|;
    DecomposedSplit(t, p, arg, rest);
    var u := t[n..];
    assert u[1..1 + |arg|] == arg;
    assert u[2 + |arg|..] == rest;
    assert t[n + 1..n + 1 + |arg|] == u[1..1 + |arg|];
    assert t[n + 2 + |arg|..] == u[2 + |arg|..];
  }

  /** A match of the prefix pattern at positions `n` (the opening parenthesis)
      and `close` (the closing one) is a decomposition of the message. */
  lemma MatchDecomposes(t: string, p: Prefix, n: nat, close: nat)
    requires p != ChatPrefix && n < close < |t|
    requires t[..n] == PrefixWord(p) && t[n] == '(' && t[close] == ')'
    requires forall k :: n + 1 <= k < close ==> t[k] != ')'
    requires n + 1 < close
    ensures Decomposes(t, p, t[n + 1..close], t[close + 1..])
  {
    assert t == t[..n] + [t[n]] + t[n + 1..close] + [t[close]] + t[close + 1..];
  }

  /** The match of `^(\w+[\!]?)\(([^)]*)\)` at the start of `t` with a
      request word and a non-empty argument: the mode, the index of the
      opening parenthesis and the index of the closing one. */
  function MatchPrefix(t: string): (m: Option<(Prefix, nat, nat)>)
    ensures m.Some? ==>
              var (p, n, close) := m.value;
              && p != ChatPrefix
              && n + 1 < close < |t|
              && t[..n] == PrefixWord(p) && t[n] == '(' && t[close] == ')'
              && (forall k :: n + 1 <= k < close ==> t[k] != ')')
  {
    var w := WordRun(t);
    var n := if w < |t| && t[w] == '!' then w + 1 else w;
    if 0 < w && n < |t| && t[n] == '(' then
      var close := CharIndexFrom(t, ')', n + 1);
      var p := RequestPrefix(t[..n]);
      if close < |t| && p.Some? && n + 1 < close then
        Some((p.value, n, close))
      else
        None
    else
      None
  }

  /** The match on the trimmed message `t`: a recognised request word with a
      non-empty argument that `parse` accepts, or else a plain chat. */
  function ParseTrimmed<J>(message: string, t: string, parse: string -> Option<J>, empty: J): ParsedMessage<J> {
    match MatchPrefix(t)
    case Some((p, n, close)) =>
      if parse(t[n + 1..close]).Some? then ParsedMessage(p, t[n..], parse(t[n + 1..close]).value)
      else ParsedMessage(ChatPrefix, message, empty)
    case None => ParsedMessage(ChatPrefix, message, empty)
  }

  /** A match whose argument parses gives the structured result, and the
      message decomposes at the match. */
  lemma MatchedParse<J>(message: string, t: string, parse: string -> Option<J>, empty: J, p: Prefix, n: nat, close: nat)
    requires MatchPrefix(t) == Some((p, n, close))
    requires parse(t[n + 1..close]).Some?
    ensures Decomposes(t, p, t[n + 1..close], t[close + 1..])
    ensures ParseTrimmed(message, t, parse, empty)
            == ParsedMessage(p, "(" + t[n + 1..close] + ")" + t[close + 1..], parse(t[n + 1..close]).value)
  {
    MatchDecomposes(t, p, n, close);
    DecomposedParts(t, p, t[n + 1..close], t[close + 1..]);
  }

  /** A structured result of the match decomposes the trimmed message. */
  lemma ParseTrimmedDecomposes<J>(message: string, t: string, parse: string -> Option<J>, empty: J)
    ensures var r := ParseTrimmed(message, t, parse, empty);
            && (r.prefix == ChatPrefix ==> r.body == message && r.options == empty)
            && (r.prefix != ChatPrefix ==>
                  exists arg, rest :: && Decomposes(t, r.prefix, arg, rest)
                                      && parse(arg) == Some(r.options)
                                      && r.body == "(" + arg + ")" + rest)
  {
    var m := MatchPrefix(t);
    if m.Some? && parse(t[m.value.1 + 1..m.value.2]).Some? {
      var (p, n, close) := m.value;
      MatchedParse(message, t, parse, empty, p, n, close);
    }
  }

  /** `parseMessageType`: matches `^(\w+[\!]?)\(([^)]*)\).*` against the
      trimmed message, accepts the four request words with a non-empty
      argument that `parse` (json5) accepts, and otherwise falls back to a
      plain chat of the untrimmed message with `empty` (`{}`) options. */
  function ParseMessageType<J>(message: string, parse: string -> Option<J>, empty: J): (r: ParsedMessage<J>)
    ensures r.prefix == ChatPrefix ==> r.body == message && r.options == empty
    ensures r.prefix != ChatPrefix ==>
              exists arg, rest :: && Decomposes(Trim(message), r.prefix, arg, rest)
                                  && parse(arg) == Some(r.options)
                                  && r.body == "(" + arg + ")" + rest
  {
    ParseTrimmedDecomposes(message, Trim(message), parse, empty);
    ParseTrimmed(message, Trim(message), parse, empty)
  }

  /** The word run of a decomposed message ends just before the `!` or `(`. */
  lemma DecomposedWordRun(t: string, p: Prefix, arg: string, rest: string)
    requires Decomposes(t, p, arg, rest)
    ensures WordRun(t) == if p == JsonSchemaPrefix then 4 else |PrefixWord(p)|
  {
    DecomposesIndexing(t, p, arg, rest);
    var base := if p == JsonSchemaPrefix then 4 else |PrefixWord(p)|;
    assert forall k :: 0 <= k < base ==> t[k] == PrefixWord(p)[k];
    assert t[base] == (if p == JsonSchemaPrefix then '!' else '(');
    WordRunAt(t, base);
  }

  /** A run of `b` word characters followed by a non-word character is the word run. */
  lemma {:induction false} WordRunAt(t: string, b: nat)
    requires b < |t|
    requires forall k :: 0 <= k < b ==> IsWordChar(t[k])
    requires !IsWordChar(t[b])
    ensures WordRun(t) == b
  {
    if b > 0 {
      WordRunAt(t[1..], b - 1);
    }
  }

  /** A `c` at `j` with none before it from `from` on is what `CharIndexFrom` finds. */
  lemma {:induction false} CharIndexAt(t: string, c: char, from: nat, j: nat)
    requires from <= j < |t| && t[j] == c
    requires forall k :: from <= k < j ==> t[k] != c
    ensures CharIndexFrom(t, c, from) == j
    decreases j - from
  {
    if from < j {
      CharIndexAt(t, c, from + 1, j);
    }
  }

  /** The optional `!` after the word run ends exactly at the opening parenthesis. */
  lemma DecomposedBang(t: string, p: Prefix, arg: string, rest: string)
    requires Decomposes(t, p, arg, rest)
    ensures var w := WordRun(t);
            && 0 < w
            && (if w < |t| && t[w] == '!' then w + 1 else w) == |PrefixWord(p)|
  {
    DecomposesIndexing(t, p, arg, rest);
    DecomposedWordRun(t, p, arg, rest);
    assert p == JsonSchemaPrefix ==> t[4] == '!';
  }

  /** Each request word is recognised as its own mode. */
  lemma RequestWordRecognised(p: Prefix)
    requires p != ChatPrefix
    ensures RequestPrefix(PrefixWord(p)) == Some(p)
  {
  }

  /** No closing parenthesis between the opening one and the argument's end. */
  lemma ArgumentUnclosed(t: string, p: Prefix, arg: string, rest: string)
    requires Decomposes(t, p, arg, rest)
    ensures var n := |PrefixWord(p)|;
            forall k :: n + 1 <= k < n + 1 + |arg| ==> t[k] != ')'
  {
    DecomposesIndexing(t, p, arg, rest);
    var n := |PrefixWord(p)|;
    assert forall k :: n + 1 <= k < n + 1 + |arg| ==> t[k] == arg[k - n - 1];
  }

  /** A decomposed message is matched at the prefix word's end and the argument's end. */
  lemma DecomposedMatch(t: string, p: Prefix, arg: string, rest: string)
    requires Decomposes(t, p, arg, rest)
    ensures MatchPrefix(t) == Some((p, |PrefixWord(p)|, |PrefixWord(p)| + 1 + |arg|))
  {
    var n := |PrefixWord(p)|;
    DecomposedBrackets(t, p, arg, rest);
    DecomposedBang(t, p, arg, rest);
    ArgumentUnclosed(t, p, arg, rest);
    CharIndexAt(t, ')', n + 1, n + 1 + |arg|);
    RequestWordRecognised(p);
  }

  /** The prefix word and the two parentheses of a decomposed message. */
  lemma DecomposedBrackets(t: string, p: Prefix, arg: string, rest: string)
    requires Decomposes(t, p, arg, rest)
    ensures var n := |PrefixWord(p)|;
            && n + 1 + |arg| < |t|
            && t[..n] == PrefixWord(p) && t[n] == '(' && t[n + 1 + |arg|] == ')'
  {
    DecomposesIndexing(t, p, arg, rest);
  }

  /** A decomposed trimmed message whose argument parses is recognised. */
  lemma RecognisedTrimmed<J>(message: string, t: string, parse: string -> Option<J>, empty: J,
                             p: Prefix, arg: string, rest: string)
    requires Decomposes(t, p, arg, rest)
    requires parse(arg).Some?
    ensures ParseTrimmed(message, t, parse, empty) == ParsedMessage(p, "(" + arg + ")" + rest, parse(arg).value)
  {
    DecomposedMatch(t, p, arg, rest);
    DecomposedParts(t, p, arg, rest);
  }

  /** Every well-formed prefixed message whose argument parses is recognised,
      and its body is the trimmed message without the prefix word. */
  lemma RecognisedPrefixIsParsed<J>(message: string, parse: string -> Option<J>, empty: J,
                                    p: Prefix, arg: string, rest: string)
    requires Decomposes(Trim(message), p, arg, rest)
    requires parse(arg).Some?
    ensures ParseMessageType(message, parse, empty)
            == ParsedMessage(p, "(" + arg + ")" + rest, parse(arg).value)
  {
    RecognisedTrimmed(message, Trim(message), parse, empty, p, arg, rest);
  }

  /** The argument and the body of a decomposed message, as slices of it. */
  lemma DecomposedParts(t: string, p: Prefix, arg: string, rest: string)
    requires Decomposes(t, p, arg, rest)
    ensures var n := |PrefixWord(p)|;
            && n + 1 + |arg| <= |t|
            && t[n + 1..n + 1 + |arg|] == arg
            && t[n..] == "(" + arg + ")" + rest
  {
    DecomposesIndexing(t, p, arg, rest);
  }

  // ---------------------------------------------------------------------
  // Message list update for `deleteCount`
  // ---------------------------------------------------------------------

  /** The new conversation messages: with a truthy `deleteCount` the last
      `deleteCount` messages are popped (popping an empty list does nothing),
      then the new message is appended. */
  method AppendMessage(messages: seq<Message>, deleteCount: Option<int>, message: Message)
    returns (r: seq<Message>)
    ensures deleteCount.Some? && deleteCount.value > 0 ==>
              r == messages[..|messages| - Min(deleteCount.value, |messages|)] + [message]
    ensures deleteCount.None? || deleteCount.value <= 0 ==> r == messages + [message]
    ensures |r| > 0 && r[|r| - 1] == message
  {
    var kept := messages;
    if deleteCount.Some? && deleteCount.value != 0 {
      var i := 0;
      while i < deleteCount.value
        invariant 0 <= i
        invariant i <= deleteCount.value || i == 0
        invariant kept == messages[..|messages| - Min(i, |messages|)]
      {
        if |kept| > 0 {
          kept := kept[..|kept| - 1];
        }
        i := i + 1;
      }
    }
    r := kept + [message];
  }

  // ---------------------------------------------------------------------
  // Data sources sent with the request
  // ---------------------------------------------------------------------

  /** The id a keyed document is sent under: a storage key without a scheme
      is an S3 key. */
  function SchemeId(key: string): string {
    if IndexOf(key, "://") == -1 then "s3://" + key else key
  }

  lemma S3IdHasScheme(key: string)
    ensures Contains("s3://" + key, "://")
  {
    assert OccursAt("s3://" + key, "://", 2);
  }

  /** `documents.map(...)`: a document with a (non-empty) key is sent under
      its scheme id with name and metadata defaulted; any other document is
      passed through as it is. */
  function NormaliseDocument(d: Doc): (r: Doc)
    ensures !Present(d.key) <==> r == d
    ensures Present(d.key) ==>
              && r.id.Some?
              && Contains(r.id.value, "://")
              && (r.id.value == d.key.value <==> Contains(d.key.value, "://"))
              && (r.id.value != d.key.value ==> r.id.value == "s3://" + d.key.value)
              && r.key.None?
              && r.docType == d.docType
              && r.name == Some(d.name.GetOr(""))
              && r.metadata == Some(d.metadata.GetOr(EmptyMetadata))
  {
    if Present(d.key) then
      S3IdHasScheme(d.key.value);
      Doc(Some(SchemeId(d.key.value)), None, d.docType, Some(d.name.GetOr("")),
          Some(d.metadata.GetOr(EmptyMetadata)))
    else
      d
  }

  /** Normalising is idempotent: a normalised document has no key left. */
  lemma NormaliseIdempotent(d: Doc)
    ensures NormaliseDocument(NormaliseDocument(d)) == NormaliseDocument(d)
  {
  }

  /** A message data source re-sent with name and metadata defaulted. */
  function ResendSource(d: Doc): (r: Doc)
    ensures r.id == d.id && r.docType == d.docType && r.key.None?
    ensures r.name.Some? && (d.name.Some? ==> r.name == d.name)
    ensures d.name.None? ==> r.name == Some("")
    ensures r.metadata.Some? && (d.metadata.Some? ==> r.metadata == d.metadata)
    ensures d.metadata.None? ==> r.metadata == Some(EmptyMetadata)
  {
    Doc(d.id, None, d.docType, Some(d.name.GetOr("")), Some(d.metadata.GetOr(EmptyMetadata)))
  }

  /** `chatBody.dataSources`: the attached documents when there are any,
      otherwise the message's own data sources, otherwise nothing. */
  function RequestDataSources(documents: Option<seq<Doc>>, message: Message): (r: Option<seq<Doc>>)
    ensures documents.Some? && |documents.value| > 0 ==>
              && r.Some? && |r.value| == |documents.value|
              && forall i :: 0 <= i < |r.value| ==> r.value[i] == NormaliseDocument(documents.value[i])
    ensures (documents.None? || |documents.value| == 0) ==>
              match message.data.dataSources
              case Some(ds) =>
                if |ds| > 0 then
                  r.Some? && |r.value| == |ds| && forall i :: 0 <= i < |ds| ==> r.value[i] == ResendSource(ds[i])
                else r.None?
              case None => r.None?
  {
    if documents.Some? && |documents.value| > 0 then
      Some(seq(|documents.value|, i requires 0 <= i < |documents.value| => NormaliseDocument(documents.value[i])))
    else match message.data.dataSources
      case Some(ds) =>
        if |ds| > 0 then Some(seq(|ds|, i requires 0 <= i < |ds| => ResendSource(ds[i]))) else None
      case None => None
  }

  // ---------------------------------------------------------------------
  // Request options
  // ---------------------------------------------------------------------

  /** The plugin chosen for the request; the plugin ids are defined outside this model. */
  datatype Plugin = CodeInterpreterPlugin | NoRagPlugin | OtherPlugin(id: string)

  type Options = map<string, bool>

  const SkipRag := "skipRag"
  const RagOnly := "ragOnly"
  const SkipCodeInterpreter := "skipCodeInterpreter"
  const CodeInterpreterOnly := "codeInterpreterOnly"

  /** The option keys the send service itself writes. */
  predicate ControlKey(k: string) {
    k == SkipRag || k == RagOnly || k == SkipCodeInterpreter || k == CodeInterpreterOnly
  }

  /** The value of flag `k` in possibly-undefined options. */
  function Flag(o: Option<Options>, k: string): Option<bool> {
    if o.Some? && k in o.value then Some(o.value[k]) else None
  }

  /** `{...(options || {}), k: v}`. */
  function With(o: Option<Options>, k: string, v: bool): Options {
    o.GetOr(map[])[k := v]
  }

  /** The RAG feature flag: when RAG is off, `skipRag` is set. */
  function RagStep(o: Option<Options>, ragEnabled: bool): (r: Option<Options>)
    ensures r.None? <==> o.None? && ragEnabled
    ensures forall k :: Flag(r, k) == if k == SkipRag && !ragEnabled then Some(true) else Flag(o, k)
  {
    if !ragEnabled then Some(With(o, SkipRag, true)) else o
  }

  /** The code-interpreter feature flag: when it is off, `skipCodeInterpreter`
      is set; otherwise a code-interpreter assistant id sets `skipRag`. */
  function CodeStep(o: Option<Options>, codeInterpreterEnabled: bool, assistantId: Option<string>): (r: Option<Options>)
    ensures r.None? <==> o.None? && codeInterpreterEnabled && !Present(assistantId)
    ensures forall k :: Flag(r, k) ==
              if k == SkipCodeInterpreter && !codeInterpreterEnabled then Some(true)
              else if k == SkipRag && codeInterpreterEnabled && Present(assistantId) then Some(true)
              else Flag(o, k)
  {
    if !codeInterpreterEnabled then Some(With(o, SkipCodeInterpreter, true))
    else if Present(assistantId) then Some(With(o, SkipRag, true))
    else o
  }

  /** The assistant-builder tag sets `skipRag` and `ragOnly`. */
  function BuilderStep(o: Option<Options>, building: bool): (r: Option<Options>)
    ensures r.None? <==> o.None? && !building
    ensures forall k :: Flag(r, k) ==
              if building && (k == SkipRag || k == RagOnly) then Some(true) else Flag(o, k)
  {
    if building then Some(With(Some(With(o, SkipRag, true)), RagOnly, true)) else o
  }

  /** The chosen plugin: code interpreter sets `codeInterpreterOnly`; NO_RAG
      sets `skipRag` and clears `ragOnly`. */
  function PluginStep(o: Option<Options>, plugin: Option<Plugin>): (r: Option<Options>)
    ensures r.None? <==> o.None? && (plugin.None? || plugin.value.OtherPlugin?)
    ensures forall k :: Flag(r, k) ==
              if plugin == Some(CodeInterpreterPlugin) && k == CodeInterpreterOnly then Some(true)
              else if plugin == Some(NoRagPlugin) && k == SkipRag then Some(true)
              else if plugin == Some(NoRagPlugin) && k == RagOnly then Some(false)
              else Flag(o, k)
  {
    match plugin
    case Some(CodeInterpreterPlugin) => Some(With(o, CodeInterpreterOnly, true))
    case Some(NoRagPlugin) => Some(With(Some(With(o, SkipRag, true)), RagOnly, false))
    case _ => o
  }

  /** The options after every step of `handleSend` that touches them, in
      source order: RAG feature flag, code-interpreter feature flag or
      assistant id, assistant-builder tag, then the plugin. */
  function MergeOptions(options: Option<Options>, ragEnabled: bool, codeInterpreterEnabled: bool,
                        assistantId: Option<string>, tags: seq<string>, builderTag: string,
                        plugin: Option<Plugin>): (r: Option<Options>)
    // The NO_RAG plugin is applied last and wins over the builder tag.
    ensures plugin == Some(NoRagPlugin) ==> Flag(r, SkipRag) == Some(true) && Flag(r, RagOnly) == Some(false)
    ensures plugin != Some(NoRagPlugin) && builderTag in tags ==>
              Flag(r, SkipRag) == Some(true) && Flag(r, RagOnly) == Some(true)
    // skipRag is only ever set to true, by any of five causes.
    ensures Flag(r, SkipRag) == Some(true) <==>
              || Flag(options, SkipRag) == Some(true)
              || !ragEnabled
              || (codeInterpreterEnabled && Present(assistantId))
              || builderTag in tags
              || plugin == Some(NoRagPlugin)
    ensures plugin != Some(NoRagPlugin) && builderTag !in tags ==> Flag(r, RagOnly) == Flag(options, RagOnly)
    ensures !codeInterpreterEnabled ==> Flag(r, SkipCodeInterpreter) == Some(true)
    ensures codeInterpreterEnabled ==> Flag(r, SkipCodeInterpreter) == Flag(options, SkipCodeInterpreter)
    ensures plugin == Some(CodeInterpreterPlugin) ==> Flag(r, CodeInterpreterOnly) == Some(true)
    ensures plugin != Some(CodeInterpreterPlugin) ==> Flag(r, CodeInterpreterOnly) == Flag(options, CodeInterpreterOnly)
    // Options stay undefined only when no step fires, and other keys are untouched.
    ensures r.None? <==>
              && options.None? && ragEnabled && codeInterpreterEnabled && !Present(assistantId)
              && builderTag !in tags && (plugin.None? || plugin.value.OtherPlugin?)
    ensures forall k :: !ControlKey(k) ==> Flag(r, k) == Flag(options, k)
  {
    var o1 := RagStep(options, ragEnabled);
    var o2 := CodeStep(o1, codeInterpreterEnabled, assistantId);
    var o3 := BuilderStep(o2, builderTag in tags);
    PluginStep(o3, plugin)
  }

  // ---------------------------------------------------------------------
  // Token costing (integer part)
  // ---------------------------------------------------------------------

  /** The tokens a document contributes: `metadata.totalTokens` when present. */
  function DocTokens(d: Doc): nat {
    match d.metadata
    case Some(Metadata(Some(t))) => t
    case _ => 0
  }

  /** The input token count of a request: the sum over its documents. */
  function InputTokens(docs: seq<Doc>): (total: nat)
    ensures forall i :: 0 <= i < |docs| ==> DocTokens(docs[i]) <= total
    ensures total == 0 <==> forall i :: 0 <= i < |docs| ==> DocTokens(docs[i]) == 0
  {
    if docs == [] then 0 else DocTokens(docs[0]) + InputTokens(docs[1..])
  }

  lemma {:induction false} InputTokensAppend(a: seq<Doc>, b: seq<Doc>)
    ensures InputTokens(a + b) == InputTokens(a) + InputTokens(b)
  {
    if a != [] {
      assert (a + b)[0] == a[0];
      assert (a + b)[1..] == a[1..] + b;
      InputTokensAppend(a[1..], b);
      assert InputTokens(a + b) == DocTokens(a[0]) + InputTokens(a[1..] + b);
    } else {
      assert a + b == b;
    }
  }
  /** One document contributes its own `totalTokens`, or nothing without one. */
  lemma InputTokensOne(d: Doc)
    ensures InputTokens([d]) == DocTokens(d)
  {
    assert [d][1..] == [];
  }

  /** The `forEach` accumulation: each document adds its tokens to the running cost. */
  lemma InputTokensSnoc(docs: seq<Doc>, d: Doc)
    ensures InputTokens(docs + [d]) == InputTokens(docs) + DocTokens(d)
  {
    InputTokensAppend(docs, [d]);
    InputTokensOne(d);
  }

  type Pos = n: nat | n > 0 witness 1

  datatype TokenEstimate = TokenEstimate(prompts: int, inputTokens: nat)

  /** `calculateTokenCost`, without the floating-point cost figures:
      `tokenLimit` stands for `Models[id].actualTokenLimit` (None for an
      unknown model). The prompt count is the ceiling of the token count
      divided by the model's context window. */
  function TokenCost(modelId: string, docs: seq<Doc>, tokenLimit: string -> Option<Pos>): (r: TokenEstimate)
    ensures r.inputTokens == InputTokens(docs)
    ensures tokenLimit(modelId).None? ==> r.prompts == -1
    ensures tokenLimit(modelId).Some? ==>
              var window := tokenLimit(modelId).value as int;
              && 0 <= r.prompts
              && (r.prompts - 1) * window < r.inputTokens <= r.prompts * window
  {
    var cost := InputTokens(docs);
    match tokenLimit(modelId)
    case None => TokenEstimate(-1, cost)
    case Some(window) =>
      var q := (cost + window - 1) / window;
      CeilingBounds(cost, window);
      TokenEstimate(q, cost)
  }

  lemma CeilingBounds(cost: nat, window: Pos)
    ensures var q := (cost + window - 1) / window;
            (q - 1) * window < cost <= q * window
  {
    var q := (cost + window - 1) / window;
    var rem := (cost + window - 1) % window;
    assert cost + window - 1 == q * window + rem;
    assert (q - 1) * window == q * window - window;
  }

  // ---------------------------------------------------------------------
  // In-order stream accumulation
  // ---------------------------------------------------------------------

  const AssistantIdMarker := "codeInterpreterAssistantId="
  const ResponseDataMarker := "codeInterpreterResponseData="
  const CodeInterpreterFailure := "Something went wrong with code interpreter... please try again."

  /** The index of the first line terminator in `s` at or after `from`, or `|s|`. */
  function LineEnd(s: string, from: nat): (e: nat)
    requires from <= |s|
    ensures from <= e <= |s|
    ensures e < |s| ==> IsLineTerminator(s[e])
    ensures forall k :: from <= k < e ==> !IsLineTerminator(s[k])
    decreases |s| - from
  {
    if from == |s| || IsLineTerminator(s[from]) then from else LineEnd(s, from + 1)
  }

  /** What `(.*)` captures after the first occurrence of `marker`. */
  function CaptureAfter(s: string, marker: string): (c: string)
    requires Contains(s, marker)
    ensures forall k :: 0 <= k < |c| ==> !IsLineTerminator(c[k])
    ensures OccursAt(s, marker + c, IndexOf(s, marker))
  {
    var start := IndexOf(s, marker) + |marker|;
    var c := s[start..LineEnd(s, start)];
    assert s[IndexOf(s, marker)..IndexOf(s, marker) + |marker + c|] == marker + c;
    c
  }

  /** A stream chunk: a code-interpreter assistant id marker, a
      code-interpreter response marker carrying JSON, or plain text. */
  datatype Chunk = AssistantIdChunk(assistantId: string) | ResponseDataChunk(json: string) | PlainChunk(text: string)

  function Classify(chunk: string): (c: Chunk)
    ensures c.AssistantIdChunk? <==> Contains(chunk, AssistantIdMarker)
    ensures c.ResponseDataChunk? <==> !Contains(chunk, AssistantIdMarker) && Contains(chunk, ResponseDataMarker)
    ensures c.AssistantIdChunk? ==>
              && (forall k :: 0 <= k < |c.assistantId| ==> !IsLineTerminator(c.assistantId[k]))
              && OccursAt(chunk, AssistantIdMarker + c.assistantId, IndexOf(chunk, AssistantIdMarker))
    ensures c.PlainChunk? ==> c.text == chunk
  {
    if Contains(chunk, AssistantIdMarker) then AssistantIdChunk(CaptureAfter(chunk, AssistantIdMarker))
    else if Contains(chunk, ResponseDataMarker) then ResponseDataChunk(CaptureAfter(chunk, ResponseDataMarker))
    else PlainChunk(chunk)
  }

  /** The decoded code-interpreter response: its text content and data, a
      reported failure (`runStatusError` when the error mentions the run
      status), or JSON that does not parse or lacks the expected fields, which
      throws and ends the stream. JSON decoding is a parameter of the model. */
  datatype CodeResponse = CodeText(textContent: string, data: map<string, Value>) | CodeFailure(runStatusError: bool) | Malformed

  /** The text a chunk adds to the response. */
  function Piece(chunk: string, decode: string -> CodeResponse): string {
    match Classify(chunk)
    case AssistantIdChunk(_) => []
    case ResponseDataChunk(json) =>
      (match decode(json)
       case CodeText(t, _) => t
       case CodeFailure(_) => CodeInterpreterFailure
       case Malformed => [])
    case PlainChunk(t) => t
  }

  /** The chunk throws and ends the stream. */
  predicate Throws(chunk: string, decode: string -> CodeResponse) {
    Classify(chunk).ResponseDataChunk? && decode(Classify(chunk).json).Malformed?
  }

  /** Some chunk of `chunks` has ended the stream. */
  predicate Halted(chunks: seq<string>, decode: string -> CodeResponse) {
    exists i :: 0 <= i < |chunks| && Throws(chunks[i], decode)
  }

  /** The response text after `chunks`, in arrival order, stopping at the first throwing chunk. */
  function StreamText(chunks: seq<string>, decode: string -> CodeResponse): string
    decreases |chunks|
  {
    if chunks == [] then []
    else
      var prev := chunks[..|chunks| - 1];
      if Halted(prev, decode) then StreamText(prev, decode)
      else StreamText(prev, decode) + Piece(chunks[|chunks| - 1], decode)
  }

  /** The conversation's code-interpreter assistant id after `chunks`. */
  function StreamAssistantId(chunks: seq<string>, decode: string -> CodeResponse, initial: Option<string>): Option<string>
    decreases |chunks|
  {
    if chunks == [] then initial
    else
      var prev := chunks[..|chunks| - 1];
      var c := Classify(chunks[|chunks| - 1]);
      if !Halted(prev, decode) && c.AssistantIdChunk? then Some(c.assistantId)
      else StreamAssistantId(prev, decode, initial)
  }

  /** `delete message.codeInterpreterMessageData.threadId`. */
  function DropThreadId(m: Message): (r: Message)
    ensures r.codeData.Some? ==> "threadId" !in r.codeData.value
    ensures r.(codeData := m.codeData) == m
  {
    match m.codeData
    case Some(cd) => m.(codeData := Some(cd - {"threadId"}))
    case None => m
  }

  /** `a` is `b`, possibly without the code-interpreter thread id. */
  predicate SameUpToThreadId(a: Message, b: Message) {
    a == b || a == DropThreadId(b)
  }

  /** The message update after a chunk: the last message receives the
      accumulated text, the current state and any code-interpreter data; the
      earlier messages lose their thread id when a new thread is needed. */
  function RefreshMessages(messages: seq<Message>, text: string, state: Value,
                           codeData: map<string, Value>, needsNewThread: bool): (r: seq<Message>)
    ensures |r| == |messages|
    ensures |r| > 0 ==>
              var last, prior := r[|r| - 1], messages[|r| - 1];
              && last.content == text
              && last.ident == prior.ident && last.role == prior.role
              && last.data == prior.data.(state := Some(state))
              && (|codeData| == 0 ==> last.codeData == prior.codeData)
              && (|codeData| != 0 ==> last.codeData == Some(codeData))
    ensures forall i :: 0 <= i < |r| - 1 ==> SameUpToThreadId(r[i], messages[i])
    ensures !needsNewThread && |r| > 0 ==> r[..|r| - 1] == messages[..|r| - 1]
  {
    seq(|messages|, i requires 0 <= i < |messages| =>
      if i == |messages| - 1 then
        var m := messages[i].(content := text, data := messages[i].data.(state := Some(state)));
        if |codeData| != 0 then m.(codeData := Some(codeData)) else m
      else if needsNewThread then DropThreadId(messages[i])
      else messages[i])
  }

  datatype StreamState = StreamState(
    conv: Conversation,
    text: string,
    codeData: map<string, Value>,
    needsNewThread: bool,
    stopped: bool)

  /** One chunk of the in-order loop. Marker chunks `continue` before the
      message update, so only a plain chunk refreshes the messages. */
  function Step(s: StreamState, chunk: string, state: Value, decode: string -> CodeResponse): StreamState {
    if s.stopped then s
    else match Classify(chunk)
      case AssistantIdChunk(id) => s.(conv := s.conv.(codeInterpreterAssistantId := Some(id)))
      case ResponseDataChunk(json) =>
        (match decode(json)
         case CodeText(t, d) => s.(text := s.text + t, codeData := d)
         case CodeFailure(e) => s.(text := s.text + CodeInterpreterFailure, needsNewThread := s.needsNewThread || e)
         case Malformed => s.(stopped := true))
      case PlainChunk(t) =>
        var text := s.text + t;
        s.(text := text,
           conv := s.conv.(messages := RefreshMessages(s.conv.messages, text, state, s.codeData, s.needsNewThread)))
  }

  /** What the read loop keeps of the conversation: its identity, the earlier
      messages up to thread-id removal, and an assistant message last whose
      content is a prefix of the accumulated text. */
  ghost predicate StreamShape(s: StreamState, conv: Conversation, ident: nat) {
    && s.conv.id == conv.id && s.conv.folderId == conv.folderId && s.conv.tags == conv.tags
    && MessagesShape(s.conv.messages, conv, ident)
    && StartsWith(s.text, s.conv.messages[|conv.messages|].content)
  }

  /** The message list during the stream: the earlier messages up to thread-id
      removal, then the assistant message being streamed. */
  ghost predicate MessagesShape(ms: seq<Message>, conv: Conversation, ident: nat) {
    && |ms| == |conv.messages| + 1
    && (forall k :: 0 <= k < |conv.messages| ==> SameUpToThreadId(ms[k], conv.messages[k]))
    && ms[|conv.messages|].ident == ident
    && ms[|conv.messages|].role == Assistant
  }

  /** Refreshing the messages keeps their shape and shows the text in the last one. */
  lemma RefreshKeepsShape(ms: seq<Message>, conv: Conversation, ident: nat, text: string, state: Value,
                          codeData: map<string, Value>, needsNewThread: bool)
    requires MessagesShape(ms, conv, ident)
    ensures var ms' := RefreshMessages(ms, text, state, codeData, needsNewThread);
            MessagesShape(ms', conv, ident) && ms'[|conv.messages|].content == text
  {
    var ms' := RefreshMessages(ms, text, state, codeData, needsNewThread);
    forall k | 0 <= k < |conv.messages|
      ensures SameUpToThreadId(ms'[k], conv.messages[k])
    {
      assert SameUpToThreadId(ms'[k], ms[k]);
      DropThreadIdTwice(conv.messages[k]);
    }
  }

  /** What one step does to the text, the halting flag and the assistant id. */
  lemma StepEffect(s: StreamState, chunk: string, state: Value, decode: string -> CodeResponse)
    ensures var s' := Step(s, chunk, state, decode);
            && s'.text == (if s.stopped then s.text else s.text + Piece(chunk, decode))
            && s'.stopped == (s.stopped || Throws(chunk, decode))
            && s'.conv.codeInterpreterAssistantId
               == (if !s.stopped && Classify(chunk).AssistantIdChunk? then Some(Classify(chunk).assistantId)
                   else s.conv.codeInterpreterAssistantId)
            && s'.conv.id == s.conv.id && s'.conv.folderId == s.conv.folderId && s'.conv.tags == s.conv.tags
            && (s.stopped || !Classify(chunk).PlainChunk? ==> s'.conv.messages == s.conv.messages)
            && (!s.stopped && Classify(chunk).PlainChunk? ==>
                  s'.conv.messages == RefreshMessages(s.conv.messages, s'.text, state, s.codeData, s.needsNewThread))
  {
  }

  /** One step keeps the shape, and a plain chunk brings the last message up to date. */
  lemma StepKeepsShape(s: StreamState, chunk: string, state: Value, decode: string -> CodeResponse,
                       conv: Conversation, ident: nat)
    requires StreamShape(s, conv, ident)
    ensures StreamShape(Step(s, chunk, state, decode), conv, ident)
    ensures var s' := Step(s, chunk, state, decode);
            Classify(chunk).PlainChunk? && !s'.stopped ==> s'.conv.messages[|conv.messages|].content == s'.text
  {
    var s' := Step(s, chunk, state, decode);
    StepEffect(s, chunk, state, decode);
    if !s.stopped && Classify(chunk).PlainChunk? {
      RefreshKeepsShape(s.conv.messages, conv, ident, s'.text, state, s.codeData, s.needsNewThread);
    } else {
      var c := s.conv.messages[|conv.messages|].content;
      assert s'.text[..|c|] == s.text[..|c|];
    }
  }

  /** Extending the chunk list by one chunk extends the reference definitions by one step. */
  lemma ReferenceSnoc(chunks: seq<string>, i: nat, decode: string -> CodeResponse, initial: Option<string>)
    requires i < |chunks|
    ensures var pre, pre' := chunks[..i], chunks[..i + 1];
            && (Halted(pre', decode) <==> Halted(pre, decode) || Throws(chunks[i], decode))
            && StreamText(pre', decode)
               == (if Halted(pre, decode) then StreamText(pre, decode) else StreamText(pre, decode) + Piece(chunks[i], decode))
            && StreamAssistantId(pre', decode, initial)
               == (if !Halted(pre, decode) && Classify(chunks[i]).AssistantIdChunk? then Some(Classify(chunks[i]).assistantId)
                   else StreamAssistantId(pre, decode, initial))
  {
    var pre, pre' := chunks[..i], chunks[..i + 1];
    assert pre' == pre + [chunks[i]];
    HaltedSnoc(pre, chunks[i], decode);
    assert pre'[..i] == pre;
  }

  /** A stream has halted after one more chunk exactly when it had already
      halted or that chunk throws. */
  lemma HaltedSnoc(pre: seq<string>, c: string, decode: string -> CodeResponse)
    ensures Halted(pre + [c], decode) <==> Halted(pre, decode) || Throws(c, decode)
  {
    var pre' := pre + [c];
    if Halted(pre', decode) && !Throws(c, decode) {
      var j :| 0 <= j < |pre'| && Throws(pre'[j], decode);
      assert j < |pre| && pre[j] == pre'[j];
    }
    if Halted(pre, decode) {
      var j :| 0 <= j < |pre| && Throws(pre[j], decode);
      assert pre'[j] == pre[j];
      assert Throws(pre'[j], decode);
    }
    if Throws(c, decode) {
      assert Throws(pre'[|pre|], decode);
    }
  }

  /** The stream state before the first read: an empty assistant message is appended. */
  function BeginStream(conv: Conversation, ident: nat, state: Value): (s: StreamState)
    ensures StreamShape(s, conv, ident)
    ensures s.text == [] && !s.stopped
    ensures s.conv.codeInterpreterAssistantId == conv.codeInterpreterAssistantId
    ensures s.conv.messages[..|conv.messages|] == conv.messages
  {
    var placeholder := Message(ident, Assistant, "", MessageData(None, None, Some(state), map[]), None);
    StreamState(conv.(messages := conv.messages + [placeholder]), "", map[], false, false)
  }

  /** The loop invariant of `StreamInOrder` after the first `i` chunks. */
  ghost predicate StreamInvariant(s: StreamState, conv: Conversation, ident: nat, chunks: seq<string>, i: nat,
                                  decode: string -> CodeResponse)
  {
    && i <= |chunks|
    && s.text == StreamText(chunks[..i], decode)
    && s.stopped == Halted(chunks[..i], decode)
    && s.conv.codeInterpreterAssistantId == StreamAssistantId(chunks[..i], decode, conv.codeInterpreterAssistantId)
    && StreamShape(s, conv, ident)
    && (i > 0 && Classify(chunks[i - 1]).PlainChunk? && !s.stopped ==>
          s.conv.messages[|conv.messages|].content == s.text)
  }

  lemma StepKeepsInvariant(s: StreamState, conv: Conversation, ident: nat, chunks: seq<string>, i: nat,
                           state: Value, decode: string -> CodeResponse)
    requires i < |chunks|
    requires StreamInvariant(s, conv, ident, chunks, i, decode)
    ensures StreamInvariant(Step(s, chunks[i], state, decode), conv, ident, chunks, i + 1, decode)
  {
    ReferenceSnoc(chunks, i, decode, conv.codeInterpreterAssistantId);
    StepEffect(s, chunks[i], state, decode);
    StepKeepsShape(s, chunks[i], state, decode, conv, ident);
  }

  /** The in-order branch of the read loop of `handleSend`: an empty assistant
      message (identity `ident`) is appended, then the chunks are processed in
      arrival order. `state` is the merged response state, and an abort is
      modelled as the stream ending after the chunks read so far. */
  method StreamInOrder(conv: Conversation, ident: nat, chunks: seq<string>, state: Value,
                       decode: string -> CodeResponse) returns (s: StreamState)
    ensures s.text == StreamText(chunks, decode)
    ensures s.stopped == Halted(chunks, decode)
    ensures s.conv.codeInterpreterAssistantId == StreamAssistantId(chunks, decode, conv.codeInterpreterAssistantId)
    ensures s.conv.id == conv.id && s.conv.folderId == conv.folderId && s.conv.tags == conv.tags
    ensures |s.conv.messages| == |conv.messages| + 1
    ensures forall i :: 0 <= i < |conv.messages| ==> SameUpToThreadId(s.conv.messages[i], conv.messages[i])
    ensures var last := s.conv.messages[|conv.messages|];
            && last.ident == ident && last.role == Assistant
            && StartsWith(s.text, last.content)
            && (|chunks| > 0 && Classify(chunks[|chunks| - 1]).PlainChunk? && !s.stopped ==> last.content == s.text)
  {
    s := BeginStream(conv, ident, state);
    assert chunks[..0] == [];
    var i := 0;
    while i < |chunks|
      invariant StreamInvariant(s, conv, ident, chunks, i, decode)
    {
      StepKeepsInvariant(s, conv, ident, chunks, i, state, decode);
      s := Step(s, chunks[i], state, decode);
      i := i + 1;
    }
    assert chunks[..i] == chunks;
  }

  /** Dropping the thread id a second time changes nothing. */
  lemma DropThreadIdTwice(m: Message)
    ensures DropThreadId(DropThreadId(m)) == DropThreadId(m)
  {
    if m.codeData.Some? {
      var cd := m.codeData.value;
      assert (cd - {"threadId"}) - {"threadId"} == cd - {"threadId"};
    }
  }
}

=== FILE: setting_dialog.dfy ===
/** The settings dialog (components/Settings/SettingDialog.tsx): the model
    table grouped by provider and sorted by name length, the option flags
    the dialog edits, change detection against the initial settings, and
    the record that is saved. */
module SettingDialog {
  import opened Base
  import opened Text

  // ---------------------------------------------------------------------
  // getAvailableModels
  // ---------------------------------------------------------------------

  /** A model as the home state lists it; `details` holds the fields the
      dialog does not read. */
  datatype Model = Model(id: string, name: string, details: map<string, Value>)

  /** A table entry: only the id and the name are carried over. */
  datatype Entry = Entry(id: string, name: string)

  datatype Bucket = Anthropic | Mistral | Gpt

  /** The bucket of a model id, checked in priority order. */
  function BucketOf(id: string): (b: Option<Bucket>)
    ensures b == Some(Anthropic) <==> Contains(id, "anthropic")
    ensures b == Some(Mistral) <==> !Contains(id, "anthropic") && StartsWith(id, "mistral")
    ensures b == Some(Gpt) <==> !Contains(id, "anthropic") && !StartsWith(id, "mistral") && StartsWith(id, "gpt")
    ensures b.None? <==> !Contains(id, "anthropic") && !StartsWith(id, "mistral") && !StartsWith(id, "gpt")
  {
    if IndexOf(id, "anthropic") != -1 then Some(Anthropic)
    else if StartsWith(id, "mistral") then Some(Mistral)
    else if StartsWith(id, "gpt") then Some(Gpt)
    else None
  }

  function EntryOf(m: Model): Entry {
    Entry(m.id, m.name)
  }

  /** The entries pushed into bucket `b` by the `reduce`, in model order. */
  function Selected(models: seq<Model>, b: Bucket): (r: seq<Entry>)
    ensures forall i :: 0 <= i < |r| ==> BucketOf(r[i].id) == Some(b)
    ensures forall i :: 0 <= i < |models| && BucketOf(models[i].id) == Some(b) ==> EntryOf(models[i]) in r
    ensures forall i :: 0 <= i < |r| ==> exists m :: m in models && r[i] == EntryOf(m)
  {
    if models == [] then []
    else
      var rest := Selected(models[1..], b);
      assert forall i :: 1 <= i < |models| ==> models[i] == models[1..][i - 1];
      assert forall m :: m in models[1..] ==> m in models;
      if BucketOf(models[0].id) == Some(b) then [EntryOf(models[0])] + rest else rest
  }

  /** One model contributes its entry to its own bucket and nothing to the others. */
  lemma SelectedOne(m: Model, b: Bucket)
    ensures Selected([m], b) == if BucketOf(m.id) == Some(b) then [EntryOf(m)] else []
  {
    assert [m][1..] == [];
  }

  /** Selection works piecewise, so each bucket keeps the models' order. */
  lemma {:induction false} SelectedAppend(a: seq<Model>, c: seq<Model>, b: Bucket)
    ensures Selected(a + c, b) == Selected(a, b) + Selected(c, b)
  {
    if a == [] {
      assert a + c == c;
    } else {
      assert (a + c)[0] == a[0];
      assert (a + c)[1..] == a[1..] + c;
      SelectedAppend(a[1..], c, b);
    }
  }

  /** The number of models that fall in no bucket. */
  function Dropped(models: seq<Model>): nat {
    if models == [] then 0 else (if BucketOf(models[0].id).None? then 1 else 0) + Dropped(models[1..])
  }

  /** Every model lands in exactly one bucket or is dropped. */
  lemma {:induction false} BucketsPartition(models: seq<Model>)
    ensures |Selected(models, Anthropic)| + |Selected(models, Mistral)| + |Selected(models, Gpt)| + Dropped(models)
            == |models|
  {
    if models != [] {
      BucketsPartition(models[1..]);
    }
  }

  // ---------------------------------------------------------------------
  // Sorting by name length, longest first
  // ---------------------------------------------------------------------

  predicate SortedByLength(s: seq<Entry>) {
    forall i, j :: 0 <= i < j < |s| ==> |s[i].name| >= |s[j].name|
  }

  /** The entry as a contribution to the entries of length `len`. */
  function Part(e: Entry, len: nat): seq<Entry> {
    if |e.name| == len then [e] else []
  }

  /** The entries whose name has length `len`, in order. */
  function WithLength(s: seq<Entry>, len: nat): seq<Entry> {
    if s == [] then [] else Part(s[0], len) + WithLength(s[1..], len)
  }

  lemma {:induction false} WithLengthSnoc(s: seq<Entry>, x: Entry, len: nat)
    ensures WithLength(s + [x], len) == WithLength(s, len) + Part(x, len)
  {
    if s == [] {
      assert [] + [x] == [x];
      assert WithLength([x], len) == Part(x, len) + WithLength([], len);
    } else {
      var t := s + [x];
      assert t[0] == s[0];
      assert t[1..] == s[1..] + [x];
      WithLengthSnoc(s[1..], x, len);
      calc {
        WithLength(t, len);
        Part(s[0], len) + WithLength(s[1..] + [x], len);
        Part(s[0], len) + (WithLength(s[1..], len) + Part(x, len));
        (Part(s[0], len) + WithLength(s[1..], len)) + Part(x, len);
      }
    }
  }

  lemma {:induction false} WithLengthNone(s: seq<Entry>, len: nat)
    requires forall i :: 0 <= i < |s| ==> |s[i].name| < len
    ensures WithLength(s, len) == []
  {
    if s != [] {
      WithLengthNone(s[1..], len);
    }
  }

  /** Inserting behind every entry at least as long. */
  function Insert(x: Entry, s: seq<Entry>): (r: seq<Entry>)
    requires SortedByLength(s)
    ensures |r| == |s| + 1 && (r[0] == x || (s != [] && r[0] == s[0]))
    ensures SortedByLength(r)
    ensures multiset(r) == multiset(s) + multiset{x}
  {
    if s == [] then [x]
    else if |s[0].name| < |x.name| then
      ConsSorted(x, s);
      [x] + s
    else
      var rest := Insert(x, s[1..]);
      assert s == [s[0]] + s[1..];
      ConsSorted(s[0], rest);
      [s[0]] + rest
  }

  /** An entry at least as long as the head of a sorted list can go in front. */
  lemma ConsSorted(e: Entry, t: seq<Entry>)
    requires SortedByLength(t)
    requires t != [] ==> |e.name| >= |t[0].name|
    ensures SortedByLength([e] + t)
  {
    forall i, j | 0 <= i < j < |[e] + t|
      ensures |([e] + t)[i].name| >= |([e] + t)[j].name|
    {
      if i == 0 {
        assert ([e] + t)[j] == t[j - 1];
      }
    }
  }

  lemma WithLengthCons(e: Entry, t: seq<Entry>, len: nat)
    ensures WithLength([e] + t, len) == Part(e, len) + WithLength(t, len)
  {
    assert ([e] + t)[1..] == t;
  }

  /** An entry longer than every entry of `s`, put in front, is also the
      last of its length. */
  lemma PrependLonger(x: Entry, s: seq<Entry>, len: nat)
    requires forall i :: 0 <= i < |s| ==> |s[i].name| < |x.name|
    ensures WithLength([x] + s, len) == WithLength(s, len) + Part(x, len)
  {
    assert ([x] + s)[1..] == s;
    if |x.name| == len {
      WithLengthNone(s, len);
    }
  }

  /** Insertion keeps equally long entries in arrival order: the new entry
      comes after every entry of its length already there. */
  lemma {:induction false} InsertStable(x: Entry, s: seq<Entry>, len: nat)
    requires SortedByLength(s)
    ensures WithLength(Insert(x, s), len) == WithLength(s, len) + Part(x, len)
  {
    if s == [] {
      WithLengthCons(x, [], len);
    } else if |s[0].name| < |x.name| {
      PrependLonger(x, s, len);
    } else {
      var t := s[1..];
      assert s == [s[0]] + t;
      var rest := Insert(x, t);
      InsertStable(x, t, len);
      WithLengthCons(s[0], rest, len);
      WithLengthCons(s[0], t, len);
      AppendAssoc(Part(s[0], len), WithLength(t, len), Part(x, len));
    }
  }

  lemma AppendAssoc<T>(a: seq<T>, b: seq<T>, c: seq<T>)
    ensures a + (b + c) == (a + b) + c
  {
  }

  /** `sorted` is `s` ordered longest name first, stably: a permutation of
      `s` in which entries of equal length keep their relative order. */
  ghost predicate StablyArranged(sorted: seq<Entry>, s: seq<Entry>) {
    && SortedByLength(sorted)
    && multiset(sorted) == multiset(s)
    && forall len: nat :: WithLength(sorted, len) == WithLength(s, len)
  }

  /** `list.sort((a, b) => b.name.length - a.name.length)`: a stable sort,
      longest name first. */
  function SortByLength(s: seq<Entry>): (r: seq<Entry>)
    ensures StablyArranged(r, s)
  {
    if s == [] then []
    else
      var n := |s| - 1;
      var sorted := SortByLength(s[..n]);
      SnocArranged(sorted, s, n);
      assert s[..n + 1] == s;
      Insert(s[n], sorted)
  }

  /** Inserting the next entry into a stable arrangement of a prefix gives a
      stable arrangement of the prefix one longer. */
  lemma SnocArranged(sorted: seq<Entry>, s: seq<Entry>, n: nat)
    requires n < |s| && StablyArranged(sorted, s[..n])
    ensures StablyArranged(Insert(s[n], sorted), s[..n + 1])
  {
    var r := Insert(s[n], sorted);
    assert s[..n + 1] == s[..n] + [s[n]];
    assert multiset(s[..n + 1]) == multiset(s[..n]) + multiset{s[n]};
    forall len: nat
      ensures WithLength(r, len) == WithLength(s[..n + 1], len)
    {
      WithLengthSnoc(s[..n], s[n], len);
      InsertStable(s[n], sorted, len);
    }
  }

  datatype Buckets = Buckets(anthropic: seq<Entry>, mistral: seq<Entry>, gpt: seq<Entry>)

  function BucketList(bs: Buckets, b: Bucket): seq<Entry> {
    match b
    case Anthropic => bs.anthropic
    case Mistral => bs.mistral
    case Gpt => bs.gpt
  }

  /** `getAvailableModels`: each bucket holds exactly its models' entries,
      longest name first, equally long names in model order. */
  function GetAvailableModels(models: seq<Model>): (r: Buckets)
    ensures StablyArranged(r.anthropic, Selected(models, Anthropic))
    ensures StablyArranged(r.mistral, Selected(models, Mistral))
    ensures StablyArranged(r.gpt, Selected(models, Gpt))
  {
    Buckets(SortByLength(Selected(models, Anthropic)),
            SortByLength(Selected(models, Mistral)),
            SortByLength(Selected(models, Gpt)))
  }

  /** A model appears only in the bucket of its id. */
  lemma EntriesInOwnBucket(models: seq<Model>, b: Bucket, e: Entry)
    requires e in BucketList(GetAvailableModels(models), b)
    ensures BucketOf(e.id) == Some(b)
    ensures exists m :: m in models && e == EntryOf(m)
  {
    var sel := Selected(models, b);
    assert StablyArranged(BucketList(GetAvailableModels(models), b), sel);
    assert e in multiset(BucketList(GetAvailableModels(models), b));
    assert e in multiset(sel);
    var i :| 0 <= i < |sel| && sel[i] == e;
  }

  // ---------------------------------------------------------------------
  // Option flags, change detection and saving
  // ---------------------------------------------------------------------

  /** An option record as its ordered entries. `JSON.stringify` of a record
      of booleans is determined by, and determines, this list. */
  type Flags = seq<(string, bool)>

  predicate UniqueKeys(flags: Flags) {
    forall i, j :: 0 <= i < j < |flags| ==> flags[i].0 != flags[j].0
  }

  /** The position of `key`, or `|flags|`. */
  function KeyIndex(flags: Flags, key: string): (i: nat)
    ensures i <= |flags|
    ensures i < |flags| ==> flags[i].0 == key
    ensures forall k :: 0 <= k < i ==> flags[k].0 != key
  {
    if flags == [] then 0
    else if flags[0].0 == key then 0
    else
      assert forall k :: 1 <= k < |flags| ==> flags[1..][k - 1] == flags[k];
      1 + KeyIndex(flags[1..], key)
  }

  /** The first occurrence of a key is where `KeyIndex` finds it. */
  lemma KeyIndexAt(flags: Flags, key: string, i: nat)
    requires i <= |flags| && (i < |flags| ==> flags[i].0 == key)
    requires forall k :: 0 <= k < i ==> flags[k].0 != key
    ensures KeyIndex(flags, key) == i
  {
  }

  function Lookup(flags: Flags, key: string): Option<bool> {
    var i := KeyIndex(flags, key);
    if i < |flags| then Some(flags[i].1) else None
  }

  /** `{...options, [key]: value}`: an existing key keeps its position, a
      new key goes last. */
  function SetFlag(flags: Flags, key: string, value: bool): (r: Flags)
    requires UniqueKeys(flags)
    ensures UniqueKeys(r)
    ensures Lookup(r, key) == Some(value)
    ensures forall k :: k != key ==> Lookup(r, k) == Lookup(flags, k)
    ensures Lookup(flags, key).Some? ==> |r| == |flags|
    ensures Lookup(flags, key).None? ==> r == flags + [(key, value)]
    ensures forall j :: 0 <= j < |flags| && flags[j].0 != key ==> r[j] == flags[j]
    ensures Lookup(flags, key).Some? ==> r[KeyIndex(flags, key)] == (key, value)
  {
    var i := KeyIndex(flags, key);
    var r := if i < |flags| then flags[i := (key, value)] else flags + [(key, value)];
    assert |r| > i && r[i] == (key, value);
    assert forall m :: 0 <= m < |flags| && m != i ==> r[m] == flags[m];
    KeyIndexAt(r, key, i);
    forall k | k != key
      ensures Lookup(r, k) == Lookup(flags, k)
    {
      var j := KeyIndex(flags, k);
      if j < |flags| {
        KeyIndexAt(r, k, j);
      } else {
        KeyIndexAt(r, k, |r|);
      }
    }
    r
  }

  /** Setting a flag and then setting it back to its value restores the record. */
  lemma SetFlagBack(flags: Flags, key: string, v: bool, w: bool)
    requires UniqueKeys(flags) && Lookup(flags, key) == Some(v)
    ensures SetFlag(SetFlag(flags, key, w), key, v) == flags
  {
    var i := KeyIndex(flags, key);
    var once := SetFlag(flags, key, w);
    assert once == flags[i := (key, w)];
    assert KeyIndex(once, key) == i;
  }

  datatype Theme = Dark | Light

  datatype Settings = Settings(theme: Theme, featureOptions: Flags, modelOptions: Flags)

  /** The dialog state next to the settings it was mounted with. */
  datatype Dialog = Dialog(theme: Theme, featureOptions: Flags, modelOptions: Flags, init: Settings)

  /** `hasUnsavedChanges`. */
  predicate HasChanges(d: Dialog) {
    || d.theme != d.init.theme
    || d.featureOptions != d.init.featureOptions
    || d.modelOptions != d.init.modelOptions
  }

  /** `handleSave`: the record saved. */
  function Save(d: Dialog): (s: Settings)
    ensures s.theme == d.theme && s.featureOptions == d.featureOptions && s.modelOptions == d.modelOptions
  {
    Settings(d.theme, d.featureOptions, d.modelOptions)
  }

  /** The dialog reports unsaved changes exactly when saving would store
      something other than the settings it was mounted with. */
  lemma ChangesIffSaveDiffers(d: Dialog)
    ensures HasChanges(d) <==> Save(d) != d.init
  {
  }

  /** Mounting the dialog: the state starts from the settings, and the
      mount effect selects the dark theme. The component stays mounted while
      it is closed, so a later reopening keeps the state it had. */
  function Mount(init: Settings): (d: Dialog)
    ensures d.init == init && d.theme == Dark
    ensures Save(d) == init.(theme := Dark)
  {
    Dialog(Dark, init.featureOptions, init.modelOptions, init)
  }

  /** A freshly mounted dialog reports changes exactly when the stored theme is not dark. */
  lemma MountedChanged(init: Settings)
    ensures HasChanges(Mount(init)) <==> init.theme != Dark
  {
  }

  /** `flagChanged` for a feature flag. */
  function ChangeFeature(d: Dialog, key: string, value: bool): (r: Dialog)
    requires UniqueKeys(d.featureOptions)
    ensures r.(featureOptions := d.featureOptions) == d
    ensures Lookup(r.featureOptions, key) == Some(value)
    ensures forall k :: k != key ==> Lookup(r.featureOptions, k) == Lookup(d.featureOptions, k)
  {
    d.(featureOptions := SetFlag(d.featureOptions, key, value))
  }

  /** `flagChanged` for a model flag. */
  function ChangeModel(d: Dialog, key: string, value: bool): (r: Dialog)
    requires UniqueKeys(d.modelOptions)
    ensures r.(modelOptions := d.modelOptions) == d
    ensures Lookup(r.modelOptions, key) == Some(value)
    ensures forall k :: k != key ==> Lookup(r.modelOptions, k) == Lookup(d.modelOptions, k)
  {
    d.(modelOptions := SetFlag(d.modelOptions, key, value))
  }

  /** Changing a feature flag and changing it back leaves no unsaved change. */
  lemma FeatureChangeUndone(d: Dialog, key: string, v: bool, w: bool)
    requires UniqueKeys(d.featureOptions) && Lookup(d.featureOptions, key) == Some(v)
    requires !HasChanges(d)
    ensures !HasChanges(ChangeFeature(ChangeFeature(d, key, w), key, v))
  {
    SetFlagBack(d.featureOptions, key, v, w);
  }

  /** Setting a feature flag the settings lack always counts as a change,
      even to `false`: the serialised record gains a key. */
  lemma NewFeatureFlagIsChange(d: Dialog, key: string, value: bool)
    requires UniqueKeys(d.featureOptions) && Lookup(d.featureOptions, key).None?
    requires d.featureOptions == d.init.featureOptions
    ensures HasChanges(ChangeFeature(d, key, value))
  {
    assert |ChangeFeature(d, key, value).featureOptions| == |d.featureOptions| + 1;
  }
}

=== FILE: text.dfy ===
/** The JavaScript string primitives the front end relies on: `trim`, the
    regular-expression classes `\s` and `\w`, `indexOf`, `includes`,
    `startsWith`, `split` on a one-character separator, `join`, and
    `toUpperCase` on one character. */
module Text {

  /** ECMAScript WhiteSpace and LineTerminator: what `trim` strips and what `\s` matches. */
  predicate IsSpace(c: char) {
    || c == ' ' || c == '\t' || c == '\n' || c == '\r' || c == '\U{B}' || c == '\U{C}'
    || c == '\U{A0}' || c == '\U{1680}' || ('\U{2000}' <= c <= '\U{200A}')
    || c == '\U{2028}' || c == '\U{2029}' || c == '\U{202F}' || c == '\U{205F}'
    || c == '\U{3000}' || c == '\U{FEFF}'
  }

  /** The characters `.` does not match in a regular expression without the `s` flag. */
  predicate IsLineTerminator(c: char) {
    c == '\n' || c == '\r' || c == '\U{2028}' || c == '\U{2029}'
  }

  /** The class `\w`. */
  predicate IsWordChar(c: char) {
    ('a' <= c <= 'z') || ('A' <= c <= 'Z') || ('0' <= c <= '9') || c == '_'
  }

  /** The class `[a-zA-Z0-9]`. */
  predicate IsAlnum(c: char) {
    ('a' <= c <= 'z') || ('A' <= c <= 'Z') || ('0' <= c <= '9')
  }

  /** `toUpperCase` on a single character; only the ASCII letters are mapped. */
  function ToUpper(c: char): (u: char)
    ensures 'a' <= c <= 'z' ==> 'A' <= u <= 'Z'
    ensures !('a' <= c <= 'z') ==> u == c
  {
    if 'a' <= c <= 'z' then (c as int - 'a' as int + 'A' as int) as char else c
  }

  /** The number of whitespace characters `trim` removes at the front. */
  function LeadingSpaces(s: string): (n: nat)
    ensures n <= |s|
    ensures forall k :: 0 <= k < n ==> IsSpace(s[k])
    ensures n < |s| ==> !IsSpace(s[n])
  {
    if s == [] || !IsSpace(s[0]) then 0 else 1 + LeadingSpaces(s[1..])
  }

  /** The number of whitespace characters `trim` removes at the back. */
  function TrailingSpaces(s: string): (n: nat)
    ensures n <= |s|
    ensures forall k :: |s| - n <= k < |s| ==> IsSpace(s[k])
    ensures n < |s| ==> !IsSpace(s[|s| - n - 1])
  {
    if s == [] || !IsSpace(s[|s| - 1]) then 0 else 1 + TrailingSpaces(s[..|s| - 1])
  }

  /** `String.prototype.trim`. */
  function Trim(s: string): (r: string)
    ensures r != [] ==> !IsSpace(r[0]) && !IsSpace(r[|r| - 1])
    ensures exists a, b :: 0 <= a <= b <= |s| && r == s[a..b]
                           && (forall k :: 0 <= k < a ==> IsSpace(s[k]))
                           && (forall k :: b <= k < |s| ==> IsSpace(s[k]))
  {
    var t := s[LeadingSpaces(s)..];
    var r := t[..|t| - TrailingSpaces(t)];
    assert r == s[LeadingSpaces(s)..LeadingSpaces(s) + |r|];
    r
  }

  /** `sub` occurs in `s` starting at index `i`. */
  predicate OccursAt(s: string, sub: string, i: int) {
    0 <= i && i + |sub| <= |s| && s[i..i + |sub|] == sub
  }

  /** `s.includes(sub)`. */
  predicate Contains(s: string, sub: string) {
    exists i :: 0 <= i <= |s| && OccursAt(s, sub, i)
  }

  /** `s.startsWith(pre)`. */
  predicate StartsWith(s: string, pre: string) {
    |pre| <= |s| && s[..|pre|] == pre
  }

  /** The first occurrence of `sub` in `s` at or after `from`, or -1. */
  function IndexFrom(s: string, sub: string, from: nat): (r: int)
    ensures r == -1 || (from <= r && OccursAt(s, sub, r))
    ensures r == -1 ==> forall i :: from <= i ==> !OccursAt(s, sub, i)
    ensures r != -1 ==> forall i :: from <= i < r ==> !OccursAt(s, sub, i)
    decreases |s| - from
  {
    if from + |sub| > |s| then -1
    else if s[from..from + |sub|] == sub then from
    else IndexFrom(s, sub, from + 1)
  }

  /** `s.indexOf(sub)`. */
  function IndexOf(s: string, sub: string): (r: int)
    ensures r == -1 <==> !Contains(s, sub)
    ensures r != -1 ==> OccursAt(s, sub, r) && forall i :: 0 <= i < r ==> !OccursAt(s, sub, i)
  {
    IndexFrom(s, sub, 0)
  }

  /** The index of the first `c` in `s` at or after `from`, or `|s|` when there is none. */
  function CharIndexFrom(s: string, c: char, from: nat): (r: nat)
    requires from <= |s|
    ensures from <= r <= |s|
    ensures r < |s| ==> s[r] == c
    ensures forall k :: from <= k < r ==> s[k] != c
    decreases |s| - from
  {
    if from == |s| || s[from] == c then from else CharIndexFrom(s, c, from + 1)
  }

  /** `s.split(sep)` for a one-character separator. */
  function Split(s: string, sep: char): (parts: seq<string>)
    ensures |parts| >= 1
    ensures forall i :: 0 <= i < |parts| ==> sep !in parts[i]
    ensures parts[0] == s[..CharIndexFrom(s, sep, 0)]
    decreases |s|
  {
    var i := CharIndexFrom(s, sep, 0);
    if i == |s| then [s] else [s[..i]] + Split(s[i + 1..], sep)
  }

  /** `parts.join(sep)`. */
  function Join(parts: seq<string>, sep: string): string {
    if |parts| == 0 then []
    else if |parts| == 1 then parts[0]
    else parts[0] + sep + Join(parts[1..], sep)
  }

  /** Joining one more part adds the separator and the part at the end. */
  lemma {:induction false} JoinSnoc(parts: seq<string>, x: string, sep: string)
    requires |parts| > 0
    ensures Join(parts + [x], sep) == Join(parts, sep) + sep + x
  {
    if |parts| == 1 {
      assert parts + [x] == [parts[0], x];
    } else {
      assert (parts + [x])[1..] == parts[1..] + [x];
      JoinSnoc(parts[1..], x, sep);
    }
  }

  /** A join of a non-empty list is a prefix of the join of any extension of it. */
  lemma {:induction false} JoinPrefix(parts: seq<string>, more: seq<string>, sep: string)
    requires |parts| > 0
    ensures StartsWith(Join(parts + more, sep), Join(parts, sep))
    decreases |more|
  {
    if more == [] {
      assert parts + more == parts;
    } else {
      var init := more[..|more| - 1];
      JoinPrefix(parts, init, sep);
      assert parts + more == (parts + init) + [more[|more| - 1]];
      JoinSnoc(parts + init, more[|more| - 1], sep);
    }
  }

  /** Splitting on a character and joining on it again gives back the string. */
  lemma {:induction false} SplitJoin(s: string, sep: char)
    ensures Join(Split(s, sep), [sep]) == s
    decreases |s|
  {
    var i := CharIndexFrom(s, sep, 0);
    if i < |s| {
      SplitJoin(s[i + 1..], sep);
      assert s == s[..i] + [sep] + s[i + 1..];
    }
  }

  /** The length of the run of `\w` characters at the front of `s`. */
  function WordRun(s: string): (n: nat)
    ensures n <= |s|
    ensures forall k :: 0 <= k < n ==> IsWordChar(s[k])
    ensures n < |s| ==> !IsWordChar(s[n])
  {
    if s == [] || !IsWordChar(s[0]) then 0 else 1 + WordRun(s[1..])
  }
}
